=== FILE: README.md ===
# Relativistic speed visualiser: backdrop and clock core in Dafny

This project models the logic behind a web page that visualises travel at
fractions and multiples of the speed of light. Two scripts carry that logic.

- `js/galaxy-background.js` animates a canvas backdrop. It holds a star pool
  of twinkling field stars, star clusters and short-lived shooting stars. It
  holds an asteroid pool whose size never changes, because every asteroid
  that drifts off screen is replaced. It holds UFOs that spawn at a limited
  rate. A UFO's speed and effects follow the speed mode in force when it
  spawns: normal below 0.95, lightspeed from 0.95, superluminal from 1.5.
- `js/main.js` owns the speed controls and the two clocks. A speed change is
  clamped to [0, 2]. Two flags are raised at 1 and at 1.5, and they pick one
  of three effect cards. The Earth clock advances 0.01 per frame. The
  traveller clock runs slower below the speed of light, stands still at
  exactly the speed of light, and runs backwards above it. Both clock
  values are drawn as hand angles.

The model is written over exact reals and unbounded integers. Things the
browser supplies become parameters:

- every `Math.random()` is a draw in [0, 1) (`Random.Unit`), collected in
  per-entity draw records;
- `Math.cos` and `Math.sin` of a random angle are given values in [-1, 1];
- `Math.sin` of the wall-clock phase is a given function `sine`;
- `Math.sqrt(|1 - v^2|)` is a given `root` with `root * root == |1 - v^2|`
  (`Clocks.IsRoot`);
- `Date.now()` is a millisecond integer `now`.

Modules, in dependency order:

- `Random` (`random.dfy`): what a uniform draw can produce.
- `Bounce` (`bounce.dfy`): the reflecting oscillation shared by star twinkle
  and UFO glow.
- `SpeedMode` (`speed_mode.dfy`): the backdrop's speed classifier and its
  effect cards.
- `Stars`, `Asteroids`, `Ufos` (`stars.dfy`, `asteroids.dfy`, `ufos.dfy`):
  each pool's generators and per-frame update.
- `Galaxy` (`galaxy.dfy`): the whole scene, the resize handler and one
  animation frame in the source's order.
- `SpeedPanel` (`speed_panel.dfy`): the page's clamp, flags and card.
- `Clocks` (`clocks.dfy`): the two clocks and their hands.

The source walks its pools backwards and splices in place. The star and UFO
updates are modelled as suffix recursions (`UpdateFrom`), which leave the same
survivors in the same order. The asteroid update is modelled twice: as a
function (`Asteroids.UpdateAsteroids`) and as the source's backwards
splice-and-push loop (`Asteroids.UpdateAsteroidsInPlace`), which is proved
equal to it.

Some of the source's own comments describe the code loosely. The model
follows the statements, not the comments:

- On age alone, a shooting star is spent only when its age is strictly
  greater than its lifespan (`js/galaxy-background.js:326`). At equal age
  and lifespan it keeps flying, unless it is already more than 50px past
  the right or bottom edge (`js/galaxy-background.js:324-325`).
- The comment at `js/galaxy-background.js:253` says "20-50 stars per
  cluster". The statement `Math.floor(Math.random() * 30) + 20` gives 20
  to 49.
- The comment at `js/galaxy-background.js:247` says "2-5 clusters
  typically". The count is `floor(w*h/500000) + 2`, which grows with the
  canvas and has no upper bound.
- The backdrop's own speed listeners pass the parsed input straight on
  (`js/galaxy-background.js:79-92`). Only the page's `handleSpeedChange`
  clamps to [0, 2] (`js/main.js:229-238`). So `SpeedMode.UpdateSpeed`
  accepts any real.

## Model

| member | source | states |
|---|---|---|
| Bounce.Reflect | js/galaxy-background.js:353-358 | the value moves by its signed step, the step keeps its size, and the direction reverses exactly when the new value is at or beyond a limit |
| Bounce.BandBounds | js/galaxy-background.js:353-358 | a value inside its reflecting band is never more than one step outside [lo, hi] |
| Bounce.StartInBand | js/galaxy-background.js:738-739 | a value that starts anywhere in [lo, hi] starts inside its band, whichever way it heads |
| Bounce.ReflectKeepsBand | js/galaxy-background.js:768-771 | a value inside its reflecting band stays inside after one frame |
| Bounce.ReflectNKeepsBand | js/galaxy-background.js:768-771 | the band holds after any number of frames |
| SpeedMode.ModeOf | js/galaxy-background.js:101-111 | superluminal exactly from 1.5, lightspeed exactly on [0.95, 1.5), normal exactly below 0.95 |
| SpeedMode.ModeMonotone | js/galaxy-background.js:101-111 | a faster speed never gets a slower mode |
| SpeedMode.Highlight | js/galaxy-background.js:117-137 | with all three cards present exactly one card is lit, and it is the requested mode's; with one missing the cards are untouched |
| SpeedMode.UpdateSpeed | js/galaxy-background.js:98-112 | the new speed is stored, its mode matches the classifier in both directions, and the lit card shows that mode |
| SpeedMode.HighlightOnlyCurrent | js/galaxy-background.js:122-135 | after a speed update, any lit card is the current mode's card |
| SpeedPanel.Clamp | js/main.js:229-238 | the result is in [0, 2]; values below 0 become 0, values above 2 become 2, values inside are unchanged |
| SpeedPanel.ClampIdempotentMonotone | js/main.js:229-238 | clamping twice is clamping once, and clamping keeps order |
| SpeedPanel.FlagsOf | js/main.js:447-448 | superluminal exactly from 1, ultra exactly from 1.5, and ultra implies superluminal |
| SpeedPanel.CardFor | js/main.js:257-264 | the ultra flag selects the superluminal card, superluminal alone the lightspeed card, neither the normal card |
| SpeedPanel.HandleSpeedChange | js/main.js:216-246 | the stored speed is the input when it is in [0, 2], 0 for an input below 0 and 2 for an input above 2; the flags match it, and with all cards present exactly one is lit, the one the flags select |
| SpeedPanel.ClassifiersDisagreeOnlyBelowOne | js/main.js:447-448 | the page's card and the backdrop's mode differ exactly on [0.95, 1), where the backdrop says lightspeed and the page says normal |
| Clocks.ZeroRoot | js/main.js:456-457 | at v = 1 the square root of abs(1 - v^2) is 0 |
| Clocks.RootSign | js/main.js:456-457 | the square root of abs(1 - v^2) is zero exactly at v = 1 and at most 1 below it |
| Clocks.TravelerStep | js/main.js:573-587 | below the speed of light the traveller clock advances by more than 0 and at most the Earth step; at exactly the speed of light it stands still; above it the clock runs backwards |
| Clocks.ClockTick | js/main.js:569-587 | the Earth clock gains 0.01; the traveller clock gains at most as much, gains below 1, loses above 1 |
| Clocks.TicksFromStart | js/main.js:542-587 | after n frames from a reset, the Earth clock reads 0.01n, the traveller clock reads n steps, and the traveller never leads |
| Clocks.Mod | js/main.js:606-608 | the remainder of a non-negative value is in [0, m), equals the value when it is below m, and differs from it by whole multiples of m |
| Clocks.ClockHands | js/main.js:601-616 | the direction is -1 exactly for negative time and 1 otherwise; every angle is in [0, 360) |
| Clocks.HandsMirror | js/main.js:603-615 | a time and its negation show the same angles turned the other way |
| Clocks.MinuteHandForward | js/main.js:608-612 | corrected: within one hour the minute hand never moves backwards |
| Clocks.HourHandForward | js/main.js:609-613 | corrected: within one half day the hour hand never moves backwards |
| Clocks.MinuteHandAsWrittenJumpsBack | js/main.js:607-612 | the source's minute angle is larger at 59.5 s than at 60 s, and exceeds 360 at 3599.5 s |
| Clocks.MinuteAngleAsWritten | js/main.js:607-612 | the source's minute angle runs ahead of the corrected one by a tenth of a degree per second into the minute, and stays below 366 degrees |
| Clocks.HourAngleAsWritten | js/main.js:608-613 | the source's hour angle runs ahead of the corrected one by half a degree per minute into the hour, and stays below 390 degrees |
| Clocks.HourHandAsWrittenJumpsBack | js/main.js:608-613 | the source's hour angle is larger at 3599 s than at 3600 s |
| Stars.Tier | js/galaxy-background.js:194-217 | a tier radius is in [0.3, 5) and its brightness in [0.3, 1]; common stars are below 0.8, the rarest at least 2.5 |
| Stars.ColorFor | js/galaxy-background.js:220-230 | the palette index is below 13, below 8 up to radius 2, below 5 up to radius 1 |
| Stars.FieldStar | js/galaxy-background.js:232-243 | a field star lies on the canvas, twinkles inside [0.3, 1], has twinkle speed in [0.01, 0.04) and pulse speed in [0.005, 0.015), and its colour respects its size |
| Stars.FieldStars | js/galaxy-background.js:189-244 | exactly floor(w*h/300) uniform field stars, the k-th built from the k-th draws |
| Stars.MemberCount | js/galaxy-background.js:253 | a cluster asks for 20 to 49 members |
| Stars.Member | js/galaxy-background.js:255-279 | a cluster member twinkles, has radius in [0.2, 1), brightness in [0.4, 0.8) and one of the first 5 colours |
| Stars.ClusterMembers | js/galaxy-background.js:255-280 | a cluster adds at most the requested members, only on-canvas ones, and all of them when all land on the canvas |
| Stars.Clusters | js/galaxy-background.js:247-281 | the clusters add at most 49 stars each, all on the canvas, small, and twinkling |
| Stars.NewShootingStar | js/galaxy-background.js:286-304 | a new shooting star starts at age 0, 20px above the canvas, within a quarter width either side, moving down and right at under 5px per axis, with lifespan in [100, 300) |
| Stars.ShootingStars | js/galaxy-background.js:284-305 | one to three shooting stars are created |
| Stars.CreateStars | js/galaxy-background.js:183-306 | the pool starts healthy: the uniform field stars come first in draw order, every field star is on the canvas, and there are 1 to 3 shooting stars |
| Stars.Twinkle | js/galaxy-background.js:352-365 | position, size, colour and speeds stay; brightness moves by speed times direction; the direction flips exactly at the limits; a non-pulsing star draws at its radius |
| Stars.TwinkleReflects | js/galaxy-background.js:353-358 | a field star's twinkle is the reflecting oscillation on [0.3, 1] |
| Stars.TwinkleStaysInBand | js/galaxy-background.js:353-358 | a twinkling star keeps twinkling, and its brightness never leaves [0.3 - speed, 1 + speed] |
| Stars.PulseBounded | js/galaxy-background.js:360-365 | the drawn radius stays within 20% of the radius |
| Stars.Fly | js/galaxy-background.js:319-321 | a shooting star moves by its speed on each axis and ages one frame, and nothing else about it changes |
| Stars.Spent | js/galaxy-background.js:324-326 | a star more than 50px past the right or bottom edge is spent, and a star that is not spent is within its lifespan |
| Stars.StepStar | js/galaxy-background.js:317-366 | a field star twinkles in place; a shooting star flies; a spent one is replaced in place when the coin exceeds 0.7 and dropped otherwise |
| Stars.UpdateFrom | js/galaxy-background.js:314-367 | the update of the stars from an index on never yields more stars than there are from that index |
| Stars.UpdateStars | js/galaxy-background.js:311-368 | a frame never grows the star pool |
| Stars.UpdateSplits | js/galaxy-background.js:314-367 | the update of a pool is the update of the stars before any index followed by the update of the stars from it, so every star's outcome keeps its place |
| Stars.ShootingKeptUnlessSpent | js/galaxy-background.js:317-350 | a shooting star that is not spent after flying survives the frame, flown, in its own slot; a spent one is replaced by a fresh one in that slot when the coin exceeds 0.7, and otherwise leaves nothing there |
| Stars.UpdateKeepsFields | js/galaxy-background.js:311-368 | after a frame, the field stars are exactly the ones before it, in order, each twinkled once |
| Stars.UpdateKeepsHealthy | js/galaxy-background.js:311-368 | a frame keeps every field star in its band and every shooting star within its lifespan |
| Stars.UpdateNeverAddsShooting | js/galaxy-background.js:317-350 | a frame never increases the number of shooting stars |
| Asteroids.MaterialOf | js/galaxy-background.js:535-553 | rock exactly above 0.7, ice exactly on (0.4, 0.7], carbon exactly up to 0.4 |
| Asteroids.CraterOf | js/galaxy-background.js:572-578 | a crater lies within 0.4 of the size from the centre and is 0.1 to 0.4 of the size across |
| Asteroids.CreateAsteroid | js/galaxy-background.js:502-584 | a new asteroid is well formed, 20px outside one edge, inside the 50px margin, with speed at most 1.1 per axis |
| Asteroids.CreateAsteroids | js/galaxy-background.js:486-497 | exactly floor(w*h/40000) asteroids, all well formed and on an entry edge |
| Asteroids.OffScreen | js/galaxy-background.js:600-605 | an asteroid on the canvas is never off screen, and an off-screen one lies outside the canvas |
| Asteroids.Drift | js/galaxy-background.js:593-598 | one frame moves by the speed and turns by the spin, and nothing else changes |
| Asteroids.SweepFrom | js/galaxy-background.js:589-612 | the kept and replacement asteroids together number the asteroids swept; no kept one is off screen; every replacement is well formed and on an entry edge |
| Asteroids.OffScreenCount | js/galaxy-background.js:600-605 | the number of asteroids from an index on that drift off screen is at most the number of asteroids there |
| Asteroids.SpawnedCount | js/galaxy-background.js:600-610 | a sweep makes exactly one replacement per asteroid that drifts off screen and keeps all the others |
| Asteroids.KeptUnlessOffScreen | js/galaxy-background.js:593-610 | an asteroid still on screen after drifting is among the kept ones |
| Asteroids.KeptSplits | js/galaxy-background.js:589-612 | the kept asteroids split at any index into those kept before it followed by those kept from it, so survivors keep their input order |
| Asteroids.UpdateAsteroids | js/galaxy-background.js:589-612 | a frame keeps the asteroid count, leaves none off screen, and keeps every asteroid well formed |
| Asteroids.UpdateKeepsOnScreen | js/galaxy-background.js:589-612 | after a frame every asteroid still on screen is in the pool, drifted once, and the pool holds exactly one fresh asteroid per asteroid that drifted off |
| Asteroids.SweptStep | js/galaxy-background.js:601-610 | proof helper for the loop: an off-screen asteroid's replacement goes to the end of the pool; an on-screen one stays ahead of the later ones |
| Asteroids.UpdateAsteroidsInPlace | js/galaxy-background.js:589-612 | the backwards splice-and-push loop computes exactly the functional update |
| Ufos.Multiplier | js/galaxy-background.js:710-727 | each mode's multiplier starts at its base (1 at speed 0, 2 at 0.95, 3.5 at 1.5) and is at least that base over the mode's own speeds |
| Ufos.MultiplierFloors | js/galaxy-background.js:710-727 | for the mode the speed classifies to, the multiplier is in [2, 3.65) for lightspeed, at least 3.5 for superluminal, below 1.95 for normal, and positive exactly above speed -1 |
| Ufos.Cruise | js/galaxy-background.js:734 | a factor in [1, 3) never shrinks a positive multiplier nor makes a non-positive one positive |
| Ufos.NewUfo | js/galaxy-background.js:700-753 | a new UFO enters 50px outside the side it starts from, in the middle 70% of the height, heads inwards, is at least twice (lightspeed) or 3.5 times (superluminal) as fast, has a black hole only in superluminal mode, and starts with glow 0, beam off and the mode's time effects |
| Ufos.CreateUfo | js/galaxy-background.js:690-754 | within 10 s of the last spawn, or when the 10% gate fails, nothing changes; otherwise one UFO is appended and the spawn time recorded |
| Ufos.NoSpawnWithinGap | js/galaxy-background.js:692-698 | two spawn checks less than 10 s apart never both add a UFO |
| Ufos.StepBeam | js/galaxy-background.js:773-785 | an inactive beam starts only on a draw above 0.995; an active beam gains 16 ms and stays on exactly while below its duration |
| Ufos.BeamLasts | js/galaxy-background.js:779-785 | a beam just switched on is on after n frames exactly when 16n is below its duration |
| Ufos.StepUfo | js/galaxy-background.js:763-792 | a UFO moves by its speed, its glow reflects in [0, 1], its beam steps, and its black hole grows by 0.5 only in superluminal mode and below its maximum |
| Ufos.NewUfoSound | js/galaxy-background.js:730-753 | a new UFO satisfies the flight invariant |
| Ufos.StepUfoSound | js/galaxy-background.js:763-792 | one frame keeps the flight invariant: glow in band, hole at most one growth step past its maximum, beam time a multiple of 16 |
| Ufos.Gone | js/galaxy-background.js:795-798 | a UFO within 100px of the canvas is never gone, and a gone UFO is moving |
| Ufos.UpdateFrom | js/galaxy-background.js:759-802 | the update of the UFOs from an index on never yields more UFOs than it was given, and every UFO in it is one of those UFOs stepped once; it leaves none gone, yields one UFO per input when none of them is gone after its step, and keeps the flight invariant |
| Ufos.UpdateUfos | js/galaxy-background.js:759-802 | a frame never adds a UFO: every UFO after it is an input UFO stepped once; it leaves none past its far edge and keeps the flight invariant |
| Ufos.KeptUnlessGone | js/galaxy-background.js:794-800 | a UFO not yet 100px past the edge it flies towards survives the frame |
| Ufos.UpdateSplits | js/galaxy-background.js:759-802 | the UFO update splits at any index into the update of the UFOs before it followed by the update of those from it, so survivors keep their input order |
| Galaxy.Start | js/galaxy-background.js:54-68 | the backdrop starts consistent, at speed 0.5 in normal mode, with no UFO, floor(w*h/40000) asteroids and more than floor(w*h/300) stars |
| Galaxy.SetSpeed | js/galaxy-background.js:98-112 | a speed change alters only the speed state and keeps the scene invariant |
| Galaxy.Resize | js/galaxy-background.js:154-160 | a resize regenerates exactly floor(w*h/300) uniform field stars and floor(w*h/40000) asteroids for the new size, keeps the UFOs, spawn time and speed, and keeps the invariant |
| Galaxy.Frame | js/galaxy-background.js:1004-1022 | a frame keeps the canvas and speed, keeps the asteroid count, never grows the stars, adds at most one UFO, and changes the spawn time only to now and never within 10 s |
| Galaxy.FrameKeepsInvariant | js/galaxy-background.js:1004-1022 | a frame keeps stars healthy, asteroids well formed and on screen, UFOs sound and the mode consistent |
| Galaxy.FrameStars | js/galaxy-background.js:1009-1011 | proof helper: a frame's star pool is the star update of the whole pool at the frame's time in seconds |
| Galaxy.FrameKeepsFields | js/galaxy-background.js:1009-1011 | a frame leaves the field stars in place, each twinkled once |
| Galaxy.FrameAddsNoShooting | js/galaxy-background.js:1009-1011 | a frame never adds a shooting star |
| Galaxy.SpawnedStepsAtOnce | js/galaxy-background.js:1018-1020 | a UFO spawned in a frame is already moved once in that frame and carries the frame's speed mode |
| Galaxy.RunKeeps | js/galaxy-background.js:1004-1022 | over any number of frames the asteroid count never changes, the star pool never grows, and the invariant holds |

## Left out

- Drawing is not modelled: `drawStars`, `drawAsteroids`, `drawUfos`, gradients, trails, the canvas context and the clearing of the canvas. Only state updates are modelled.
- DOM work is not modelled: element lookup, CSS classes on the body, text content, speed lines, warp lines, mode descriptions and `updateUFOVisualAnimations`. Only the effect cards' active flags are modelled.
- `requestAnimationFrame`, event listeners, `stopAnimation` and the animation loops themselves are not modelled. `Galaxy.Run` applies frames in sequence, and `Clocks.Ticks` does the same for the clocks.
- Randomness, trigonometry, square roots and the clock are parameters, not computed. Floating-point rounding is not modelled: arithmetic is exact over the reals.
- `parseFloat` returning NaN for a non-numeric input is not modelled; speeds are reals.
- Colours are not modelled as strings. A field star keeps a palette index. An asteroid keeps a material, which fixes its three colours. A UFO keeps its spawn mode, which fixes its glow and beam colours. A shooting star's fixed colour and brightness 0.9 are drawing constants and are left out.
- Asteroid vertex angles are kept as values but carry no property, because they only shape the drawing.
- A field star's `currentRadius` is left undefined by the source until its first update; the model starts it at the radius, the value the drawing falls back to.
- The effect cards are one set of elements in the page, with ids `ufo-normal`, `ufo-lightspeed` and `ufo-superluminal`. The backdrop looks them up at `js/galaxy-background.js:118-120` and the page at `js/main.js:13-15`. The model keeps two separate card states, `SpeedState.cards` and `Panel.cards`. For speeds in [0.95, 1) the two classifiers pick different cards (`SpeedPanel.ClassifiersDisagreeOnlyBelowOne`). In the page, the card that stays lit is the one chosen by whichever listener ran last. That ordering of listeners is not modelled.
- Both scripts declare top-level functions named `createStars` (`js/galaxy-background.js:183`, `js/main.js:86`) and `updateUFOEffectCard` (`js/galaxy-background.js:117`, `js/main.js:249`). Loaded as classic scripts on one page, the later declaration would replace the earlier one for both scripts' callers. The model keeps each script's own function apart (`Stars.CreateStars` and `SpeedMode.Highlight` for the backdrop, `SpeedPanel.CardFor` for the page). The page's script load order is not part of the source, so which declaration would win is not modelled.
- `Galaxy.Frame` takes one `now` for the whole frame. The source reads `Date.now()` twice in a frame: once in the star update (`js/galaxy-background.js:312`) and once in the UFO spawn check (`js/galaxy-background.js:692`). The gap between those two reads is not modelled.
- Clocks.ClockHands: models the corrected hand angles. The source's angles are `Clocks.MinuteAngleAsWritten` and `Clocks.HourAngleAsWritten`; see Findings.
- The star and UFO updates are modelled as functions over the pool, not as the backwards splice loops. The asteroid loop is modelled as a method and proved equal to its function.

## Findings

| source | as written | input that shows it | evidently intended | confidence | as-written member | corrected member |
|---|---|---|---|---|---|---|
| js/main.js:607-612 | `minutes` is already fractional, and the minute angle adds `seconds / 60` on top, so the sub-minute part counts twice | time 59.5 s gives 11.9 degrees; time 60 s gives 6 degrees (the hand steps back); time 3599.5 s gives more than 360 degrees | the minute hand at the fractional minute of the hour, moving forward within each hour | high (not executed) | Clocks.MinuteHandAsWrittenJumpsBack | Clocks.MinuteHandForward |
| js/main.js:608-613 | `hours` is already fractional, and the hour angle adds `minutes / 60` on top, so the sub-hour part counts twice | time 3599 s gives about 60 degrees (59.98); time 3600 s gives 30 degrees (the hand steps back) | the hour hand at the fractional hour of the half day, moving forward within each half day | high (not executed) | Clocks.HourHandAsWrittenJumpsBack | Clocks.HourHandForward |

=== FILE: asteroids.dfy ===
/** The backdrop's asteroid pool: irregular rotating rocks that enter from
    just outside an edge and, once they drift beyond a 50px margin, are
    replaced by a freshly generated one, so the population never changes.
 */
module Asteroids {
  import opened Random

  /** The material theme, which fixes the three colours a rock is drawn
      with. */
  datatype Material = Rock | Ice | Carbon

  /** A silhouette vertex: a multiplier of the size and an angle. */
  datatype Vertex = Vertex(scale: real, angle: real)

  /** A crater: an offset from the centre and a radius. */
  datatype Crater = Crater(dx: real, dy: real, radius: real)

  datatype Asteroid = Asteroid(x: real, y: real, size: real, speedX: real, speedY: real,
                               rotation: real, spin: real, vertices: seq<Vertex>,
                               craters: seq<Crater>, material: Material)

  /** The most vertices and craters an asteroid can draw. */
  const MaxVertices: nat := 10
  const MaxCraters: nat := 3

  /** The draws one asteroid consumes. `cos` and `sin` are those of its
      random heading; `vertices` and `craters` hold the draws for as many
      of each as it may need, of which it uses a prefix. */
  datatype AsteroidDraws = AsteroidDraws(edge: real, along: real, speed: real,
                                         cos: real, sin: real, size: real, kind: real,
                                         rotation: real, spin: real, vertexCount: real,
                                         vertices: seq<(real, real)>, craterCount: real,
                                         craters: seq<(real, real, real)>)
  {
    predicate Valid() {
      && Unit(edge) && Unit(along) && Unit(speed) && Trig(cos) && Trig(sin)
      && Unit(size) && Unit(kind) && Unit(rotation) && Unit(spin)
      && Unit(vertexCount) && Unit(craterCount)
      && |vertices| == MaxVertices && |craters| == MaxCraters
      && (forall k :: 0 <= k < |vertices| ==> Unit(vertices[k].0) && Unit(vertices[k].1))
      && (forall k :: 0 <= k < |craters| ==> Unit(craters[k].0) && Unit(craters[k].1) && Unit(craters[k].2))
    }
  }

  ghost predicate ValidDraws(d: nat -> AsteroidDraws) {
    forall i :: d(i).Valid()
  }

  /** The shape every generated asteroid has: 7 to 10 vertices, 1 to 3
      craters, each crater within 0.4 of the size from the centre and 0.1
      to 0.4 of the size across. */
  predicate WellFormed(a: Asteroid) {
    && 4.0 <= a.size < 9.0
    && 7 <= |a.vertices| <= MaxVertices
    && 1 <= |a.craters| <= MaxCraters
    && (forall k :: 0 <= k < |a.vertices| ==> 0.8 <= a.vertices[k].scale < 1.2)
    && (forall k :: 0 <= k < |a.craters| ==>
          && -0.4 * a.size <= a.craters[k].dx < 0.4 * a.size
          && -0.4 * a.size <= a.craters[k].dy < 0.4 * a.size
          && 0.1 * a.size <= a.craters[k].radius < 0.4 * a.size)
  }

  /** Beyond the 50px margin around the canvas. */
  predicate OffScreen(a: Asteroid, w: nat, h: nat): (b: bool)
    ensures 0.0 <= a.x <= w as real && 0.0 <= a.y <= h as real ==> !b
    ensures b ==> a.x < 0.0 || a.x > w as real || a.y < 0.0 || a.y > h as real
  {
    a.x < -50.0 || a.x > w as real + 50.0 || a.y < -50.0 || a.y > h as real + 50.0
  }

  /** 20px outside one edge of the canvas, somewhere along it. */
  predicate OnEntryEdge(a: Asteroid, w: nat, h: nat) {
    || (a.y == -20.0 && 0.0 <= a.x <= w as real)
    || (a.x == w as real + 20.0 && 0.0 <= a.y <= h as real)
    || (a.y == h as real + 20.0 && 0.0 <= a.x <= w as real)
    || (a.x == -20.0 && 0.0 <= a.y <= h as real)
  }

  /** The theme of a single draw: above 0.7 rock, above 0.4 ice, else
      carbon. */
  function MaterialOf(u: real): (m: Material)
    ensures m == Rock <==> u > 0.7
    ensures m == Ice <==> 0.4 < u <= 0.7
    ensures m == Carbon <==> u <= 0.4
  {
    if u > 0.7 then Rock else if u > 0.4 then Ice else Carbon
  }

  /** The crater of one triple of draws on a rock of the given size. */
  function CraterOf(size: real, c: (real, real, real)): (r: Crater)
    requires 0.0 < size && Unit(c.0) && Unit(c.1) && Unit(c.2)
    ensures -0.4 * size <= r.dx < 0.4 * size && -0.4 * size <= r.dy < 0.4 * size
    ensures 0.1 * size <= r.radius < 0.4 * size
  {
    Crater(Along(c.0, size * 0.8) - size * 0.4, Along(c.1, size * 0.8) - size * 0.4,
           Along(c.2, size * 0.3) + size * 0.1)
  }

  /** A new asteroid entering from one of the four edges, picked
      uniformly. */
  function CreateAsteroid(w: nat, h: nat, d: AsteroidDraws): (a: Asteroid)
    requires d.Valid()
    ensures WellFormed(a) && OnEntryEdge(a, w, h) && !OffScreen(a, w, h)
    ensures a.material == MaterialOf(d.kind)
    ensures -1.1 <= a.speedX <= 1.1 && -1.1 <= a.speedY <= 1.1
  {
    var edge := Pick(d.edge, 4);
    var pos :=
      if edge == 0 then (Along(d.along, w as real), -20.0)
      else if edge == 1 then (w as real + 20.0, Along(d.along, h as real))
      else if edge == 2 then (Along(d.along, w as real), h as real + 20.0)
      else (-20.0, Along(d.along, h as real));
    var speed := Spread(d.speed, 0.3, 0.8);
    var size := Spread(d.size, 4.0, 5.0);
    var nv := Pick(d.vertexCount, 4) + 7;
    var nc := Pick(d.craterCount, 3) + 1;
    var vs := seq(nv, k requires 0 <= k < nv => Vertex(Spread(d.vertices[k].0, 0.8, 0.4), d.vertices[k].1 * TwoPi));
    var cs := seq(nc, k requires 0 <= k < nc => CraterOf(size, d.craters[k]));
    TrigScale(d.cos, speed);
    TrigScale(d.sin, speed);
    Asteroid(pos.0, pos.1, size, d.cos * speed, d.sin * speed, d.rotation * TwoPi,
             (d.spin - 0.5) * 0.05, vs, cs, MaterialOf(d.kind))
  }

  lemma TrigScale(c: real, m: real)
    requires Trig(c) && 0.0 <= m
    ensures -m <= c * m <= m
  {
  }

  /** One asteroid per 40000 square pixels, rounded down. */
  function AsteroidCount(w: nat, h: nat): nat {
    w * h / 40000
  }

  /** The pool for a fresh canvas. */
  function CreateAsteroids(w: nat, h: nat, d: nat -> AsteroidDraws): (r: seq<Asteroid>)
    requires ValidDraws(d)
    ensures |r| == AsteroidCount(w, h)
    ensures forall k :: 0 <= k < |r| ==> WellFormed(r[k]) && OnEntryEdge(r[k], w, h)
  {
    seq(AsteroidCount(w, h), i requires 0 <= i => CreateAsteroid(w, h, d(i)))
  }

  /** One frame of drift and rotation. */
  function Drift(a: Asteroid): (b: Asteroid)
    ensures b.x - a.x == a.speedX && b.y - a.y == a.speedY
    ensures b.rotation - a.rotation == a.spin
    ensures b.(x := a.x, y := a.y, rotation := a.rotation) == a
  {
    a.(x := a.x + a.speedX, y := a.y + a.speedY, rotation := a.rotation + a.spin)
  }

  /** The outcome of a frame over the asteroids from some index on: the
      ones that stayed, drifted and in order, and the replacements in the
      order they were created. */
  datatype Sweep = Sweep(kept: seq<Asteroid>, spawned: seq<Asteroid>)

  /** The source walks the pool from the back. An asteroid that drifts
      off screen is spliced out and a replacement is pushed onto the END
      of the pool, where this frame's walk does not reach it; so the
      replacement for index `i` comes after those for every later index. */
  function SweepFrom(rocks: seq<Asteroid>, i: nat, w: nat, h: nat, d: nat -> AsteroidDraws): (s: Sweep)
    requires i <= |rocks| && ValidDraws(d)
    ensures |s.kept| + |s.spawned| == |rocks| - i
    ensures forall k :: 0 <= k < |s.kept| ==> !OffScreen(s.kept[k], w, h)
    ensures forall k :: 0 <= k < |s.spawned| ==> WellFormed(s.spawned[k]) && OnEntryEdge(s.spawned[k], w, h)
    ensures (forall k :: i <= k < |rocks| ==> WellFormed(rocks[k])) ==>
              forall k :: 0 <= k < |s.kept| ==> WellFormed(s.kept[k])
    decreases |rocks| - i
  {
    if i == |rocks| then Sweep([], [])
    else
      var rest := SweepFrom(rocks, i + 1, w, h, d);
      var moved := Drift(rocks[i]);
      if OffScreen(moved, w, h) then Sweep(rest.kept, rest.spawned + [CreateAsteroid(w, h, d(i))])
      else Sweep([moved] + rest.kept, rest.spawned)
  }

  /** How many asteroids from index `i` on drift off screen this frame. */
  function OffScreenCount(rocks: seq<Asteroid>, i: nat, w: nat, h: nat): (n: nat)
    requires i <= |rocks|
    ensures n <= |rocks| - i
    decreases |rocks| - i
  {
    if i == |rocks| then 0
    else (if OffScreen(Drift(rocks[i]), w, h) then 1 else 0) + OffScreenCount(rocks, i + 1, w, h)
  }

  /** A sweep replaces exactly the asteroids that drift off screen: one
      replacement for each of them, and every other asteroid kept. */
  lemma {:induction false} SpawnedCount(rocks: seq<Asteroid>, i: nat, w: nat, h: nat, d: nat -> AsteroidDraws)
    requires i <= |rocks| && ValidDraws(d)
    ensures |SweepFrom(rocks, i, w, h, d).spawned| == OffScreenCount(rocks, i, w, h)
    ensures |SweepFrom(rocks, i, w, h, d).kept| == |rocks| - i - OffScreenCount(rocks, i, w, h)
    decreases |rocks| - i
  {
    if i < |rocks| {
      SpawnedCount(rocks, i + 1, w, h, d);
    }
  }

  /** An asteroid still on screen after drifting survives the sweep. */
  lemma {:induction false} KeptUnlessOffScreen(rocks: seq<Asteroid>, i: nat, j: nat, w: nat, h: nat,
                                               d: nat -> AsteroidDraws)
    requires ValidDraws(d) && i <= j < |rocks| && !OffScreen(Drift(rocks[j]), w, h)
    ensures Drift(rocks[j]) in SweepFrom(rocks, i, w, h, d).kept
    decreases j - i
  {
    if i < j {
      KeptUnlessOffScreen(rocks, i + 1, j, w, h, d);
    }
  }

  /** The kept asteroids of a sweep split at any index: those kept before
      it, then those kept from it on. So survivors keep their input
      order. */
  lemma {:induction false} KeptSplits(rocks: seq<Asteroid>, i: nat, j: nat, w: nat, h: nat,
                                      d: nat -> AsteroidDraws)
    requires i <= j <= |rocks| && ValidDraws(d)
    ensures SweepFrom(rocks, i, w, h, d).kept
              == SweepFrom(rocks[..j], i, w, h, d).kept + SweepFrom(rocks, j, w, h, d).kept
    decreases j - i
  {
    var pre := rocks[..j];
    if i < j {
      var moved := Drift(rocks[i]);
      var middle := SweepFrom(pre, i + 1, w, h, d).kept;
      var after := SweepFrom(rocks, j, w, h, d).kept;
      assert pre[i] == rocks[i];
      KeptSplits(rocks, i + 1, j, w, h, d);
      if !OffScreen(moved, w, h) {
        assert [moved] + (middle + after) == ([moved] + middle) + after;
      }
    } else {
      assert SweepFrom(pre, i, w, h, d).kept == [];
    }
  }

  /** One frame of the asteroid pool; the asteroid at index `i` consumes
      `d(i)` if it needs replacing. */
  function UpdateAsteroids(rocks: seq<Asteroid>, w: nat, h: nat, d: nat -> AsteroidDraws): (r: seq<Asteroid>)
    requires ValidDraws(d)
    ensures |r| == |rocks|
    ensures forall k :: 0 <= k < |r| ==> !OffScreen(r[k], w, h)
    ensures (forall k :: 0 <= k < |rocks| ==> WellFormed(rocks[k])) ==>
              forall k :: 0 <= k < |r| ==> WellFormed(r[k])
  {
    var s := SweepFrom(rocks, 0, w, h, d);
    s.kept + s.spawned
  }

  /** After a frame, every asteroid that is still on screen is in the pool,
      drifted once, and the pool holds exactly as many fresh asteroids as
      there were asteroids that drifted off screen. */
  lemma UpdateKeepsOnScreen(rocks: seq<Asteroid>, w: nat, h: nat, d: nat -> AsteroidDraws)
    requires ValidDraws(d)
    ensures forall j :: 0 <= j < |rocks| && !OffScreen(Drift(rocks[j]), w, h) ==>
              Drift(rocks[j]) in UpdateAsteroids(rocks, w, h, d)
    ensures var s := SweepFrom(rocks, 0, w, h, d);
            UpdateAsteroids(rocks, w, h, d) == s.kept + s.spawned
            && |s.spawned| == OffScreenCount(rocks, 0, w, h)
  {
    forall j | 0 <= j < |rocks| && !OffScreen(Drift(rocks[j]), w, h)
      ensures Drift(rocks[j]) in UpdateAsteroids(rocks, w, h, d)
    {
      KeptUnlessOffScreen(rocks, 0, j, w, h, d);
    }
    SpawnedCount(rocks, 0, w, h, d);
  }

  /** The pool a sweep from index `i` leaves behind it. */
  function Swept(rocks: seq<Asteroid>, i: nat, w: nat, h: nat, d: nat -> AsteroidDraws): seq<Asteroid>
    requires i <= |rocks| && ValidDraws(d)
  {
    var s := SweepFrom(rocks, i, w, h, d);
    s.kept + s.spawned
  }

  /** Extending a sweep by one index: the asteroid either drifts in front
      of the later ones or its replacement goes to the very end. */
  lemma SweptStep(rocks: seq<Asteroid>, i: nat, w: nat, h: nat, d: nat -> AsteroidDraws)
    requires i < |rocks| && ValidDraws(d)
    ensures OffScreen(Drift(rocks[i]), w, h) ==>
              Swept(rocks, i, w, h, d) == Swept(rocks, i + 1, w, h, d) + [CreateAsteroid(w, h, d(i))]
    ensures !OffScreen(Drift(rocks[i]), w, h) ==>
              Swept(rocks, i, w, h, d) == [Drift(rocks[i])] + Swept(rocks, i + 1, w, h, d)
  {
  }

  /** The source's loop itself: walk the pool backwards, drift each
      asteroid, and splice out and replace the ones off screen. */
  method UpdateAsteroidsInPlace(rocks: seq<Asteroid>, w: nat, h: nat, d: nat -> AsteroidDraws)
    returns (pool: seq<Asteroid>)
    requires ValidDraws(d)
    ensures pool == UpdateAsteroids(rocks, w, h, d)
    ensures |pool| == |rocks|
  {
    pool := rocks;
    var i := |rocks|;
    assert rocks[..i] + Swept(rocks, i, w, h, d) == rocks;
    while i > 0
      invariant 0 <= i <= |rocks|
      invariant pool == rocks[..i] + Swept(rocks, i, w, h, d)
      decreases i
    {
      i := i - 1;
      SweptStep(rocks, i, w, h, d);
      assert rocks[..i + 1] == rocks[..i] + [rocks[i]];
      Splice(rocks[..i], rocks[i], Swept(rocks, i + 1, w, h, d));
      var moved := Drift(pool[i]);
      if OffScreen(moved, w, h) {
        pool := pool[..i] + pool[i + 1..];
        pool := pool + [CreateAsteroid(w, h, d(i))];
      } else {
        pool := pool[i := moved];
      }
    }
    assert rocks[..0] == [];
  }

  /** Removing or replacing the element after a prefix. */
  lemma Splice<T>(prefix: seq<T>, x: T, rest: seq<T>)
    ensures var s := prefix + [x] + rest;
            && s[|prefix|] == x
            && s[..|prefix|] + s[|prefix| + 1..] == prefix + rest
            && forall y :: s[|prefix| := y] == prefix + [y] + rest
  {
  }
}

=== FILE: bounce.dfy ===
/** The reflecting boundary shared by a field star's twinkle and a UFO's
    glow: each frame the value moves by its signed step, and the sign of
    the step flips once the moved value reaches either limit.
 */
module Bounce {

  /** A value together with the signed amount it moves per frame. */
  datatype Wave = Wave(value: real, step: real)

  /** True when a moved value has reached a limit and the step turns. */
  predicate Turns(v: real, lo: real, hi: real) {
    v >= hi || v <= lo
  }

  /** One frame of a reflecting value in [lo, hi]. */
  function Reflect(w: Wave, lo: real, hi: real): (r: Wave)
    ensures r.value - w.value == w.step
    ensures r.step == w.step || r.step == -w.step
    ensures r.step != w.step ==> Turns(r.value, lo, hi)
    ensures Turns(r.value, lo, hi) ==> r.step == -w.step
  {
    var v := w.value + w.step;
    Wave(v, if Turns(v, lo, hi) then -w.step else w.step)
  }

  /** Where a reflecting value can be, given the direction it is heading:
      rising values are at most `hi` and at least one step below `lo`,
      falling values at least `lo` and at most one step above `hi`. */
  predicate InBand(w: Wave, lo: real, hi: real) {
    && (w.step > 0.0 ==> lo - w.step <= w.value <= hi)
    && (w.step < 0.0 ==> lo <= w.value <= hi - w.step)
    && (w.step == 0.0 ==> lo <= w.value <= hi)
  }

  /** The band confines the value to [lo - |step|, hi + |step|]. */
  lemma BandBounds(w: Wave, lo: real, hi: real)
    requires lo <= hi && InBand(w, lo, hi)
    ensures w.step >= 0.0 ==> lo - w.step <= w.value <= hi + w.step
    ensures w.step < 0.0 ==> lo + w.step <= w.value <= hi - w.step
  {
  }

  /** A value anywhere in [lo, hi] starts inside the band, whichever way
      it is heading. */
  lemma StartInBand(w: Wave, lo: real, hi: real)
    requires lo <= w.value <= hi
    ensures InBand(w, lo, hi)
  {
  }

  /** One frame keeps a value in its band. */
  lemma ReflectKeepsBand(w: Wave, lo: real, hi: real)
    requires lo < hi && InBand(w, lo, hi)
    ensures InBand(Reflect(w, lo, hi), lo, hi)
  {
  }

  /** `n` frames of a reflecting value. */
  function ReflectN(w: Wave, lo: real, hi: real, n: nat): (r: Wave)
    ensures r.step == w.step || r.step == -w.step
    decreases n
  {
    if n == 0 then w else ReflectN(Reflect(w, lo, hi), lo, hi, n - 1)
  }

  /** However many frames pass, the value stays in its band, so it never
      leaves [lo - |step|, hi + |step|]. */
  lemma {:induction false} ReflectNKeepsBand(w: Wave, lo: real, hi: real, n: nat)
    requires lo < hi && InBand(w, lo, hi)
    ensures InBand(ReflectN(w, lo, hi, n), lo, hi)
    decreases n
  {
    if n > 0 {
      ReflectKeepsBand(w, lo, hi);
      ReflectNKeepsBand(Reflect(w, lo, hi), lo, hi, n - 1);
    }
  }
}

=== FILE: clocks.dfy ===
/** The two analog clocks of the relativity panel: an Earth clock that
    advances a fixed amount per frame and a traveller clock that runs
    slower below the speed of light and backwards above it, and the hand
    angles drawn from a clock value.
 */
module Clocks {
  import opened Random

  /** The Earth and traveller clock values, in clock seconds. */
  datatype Clock = Clock(earth: real, traveler: real)

  /** Both clocks as the animation starts them. */
  const Start: Clock := Clock(0.0, 0.0)

  /** The Earth clock's advance per frame. */
  const Tick: real := 0.01

  /** `root` stands for the square root of |1 - speed^2| that the source
      computes. */
  predicate IsRoot(speed: real, root: real) {
    0.0 <= root && root * root == (if speed * speed <= 1.0 then 1.0 - speed * speed else speed * speed - 1.0)
  }

  /** The traveller clock's advance per frame. Below the speed of light it
      is 0.01 divided by the Lorentz factor 1/root; at or above it, 0.01
      (0.015 from 1.5 on) divided by the dilation factor 1/root, taken
      backwards. At exactly 1 the factor is infinite and the step is 0. */
  function TravelerStep(speed: real, root: real): (d: real)
    requires 0.0 <= speed && IsRoot(speed, root)
    ensures speed < 1.0 ==> 0.0 < d <= Tick
    ensures speed == 1.0 ==> d == 0.0
    ensures speed >= 1.0 ==> d <= 0.0
    ensures speed > 1.0 ==> d < 0.0
  {
    RootSign(speed, root);
    if speed < 1.0 then Tick * root
    else if speed >= 1.5 then -0.015 * root
    else -Tick * root
  }

  /** A real whose square is positive is not zero. */
  lemma SquarePositive(a: real)
    requires 0.0 < a * a
    ensures a != 0.0
  {
  }

  /** At the speed of light the root is zero. */
  lemma ZeroRoot(root: real)
    requires IsRoot(1.0, root)
    ensures root == 0.0
  {
    assert root * root == 0.0;
    if root > 0.0 {
      Product(root, root);
      assert false;
    }
  }

  /** The root vanishes exactly at the speed of light and is at most 1
      below it. */
  lemma RootSign(speed: real, root: real)
    requires 0.0 <= speed && IsRoot(speed, root)
    ensures root == 0.0 <==> speed == 1.0
    ensures speed < 1.0 ==> root <= 1.0
  {
    var sq := speed * speed;
    if speed == 1.0 {
      ZeroRoot(root);
    } else if speed < 1.0 {
      var gap := 1.0 - speed;
      assert sq == speed - gap * speed;
      assert root * root == 1.0 - sq;
      assert 0.0 < root * root;
      SquarePositive(root);
    } else if speed > 1.0 {
      var gap := speed - 1.0;
      Product(gap, speed);
      assert sq == speed + gap * speed;
      assert 0.0 < root * root;
      SquarePositive(root);
    }
  }

  /** One frame of the clock animation at a clamped speed. */
  function ClockTick(c: Clock, speed: real, root: real): (r: Clock)
    requires 0.0 <= speed && IsRoot(speed, root)
    ensures r.earth == c.earth + Tick
    ensures speed < 1.0 ==> c.traveler < r.traveler
    ensures speed >= 1.0 ==> r.traveler <= c.traveler
    ensures speed > 1.0 ==> r.traveler < c.traveler
    ensures r.traveler - c.traveler <= r.earth - c.earth
  {
    Clock(c.earth + Tick, c.traveler + TravelerStep(speed, root))
  }

  /** `n` frames at a constant speed. */
  function Ticks(c: Clock, speed: real, root: real, n: nat): Clock
    requires 0.0 <= speed && IsRoot(speed, root)
    decreases n
  {
    if n == 0 then c else ClockTick(Ticks(c, speed, root, n - 1), speed, root)
  }

  /** After `n` frames from the start the Earth clock reads 0.01n and the
      traveller clock n times its step, never ahead of the Earth clock. */
  lemma {:induction false} TicksFromStart(speed: real, root: real, n: nat)
    requires 0.0 <= speed && IsRoot(speed, root)
    ensures Ticks(Start, speed, root, n).earth == n as real * Tick
    ensures Ticks(Start, speed, root, n).traveler == n as real * TravelerStep(speed, root)
    ensures Ticks(Start, speed, root, n).traveler <= Ticks(Start, speed, root, n).earth
    decreases n
  {
    if n > 0 {
      TicksFromStart(speed, root, n - 1);
      var d := TravelerStep(speed, root);
      assert (n - 1) as real * d + d == n as real * d;
      assert (n - 1) as real * Tick + Tick == n as real * Tick;
    }
  }

  // ---------------------------------------------------------------- hands

  /** The host's `%` on a non-negative dividend: the remainder left after
      taking out whole multiples of `m`. */
  function Mod(a: real, m: real): (r: real)
    requires 0.0 <= a && 0.0 < m
    ensures 0.0 <= r < m
    ensures a < m ==> r == a
    ensures r == a - m * (a / m).Floor as real
  {
    var q := (a / m).Floor;
    QuotientParts(a, m);
    var f := a / m - q as real;
    FractionScaled(m, f);
    assert a - m * q as real == m * f;
    assert a < m ==> q == 0;
    a - m * q as real
  }

  /** The quotient of a non-negative dividend: multiplying back gives the
      dividend, and it is below 1 when the dividend is below the divisor. */
  lemma QuotientParts(a: real, m: real)
    requires 0.0 <= a && 0.0 < m
    ensures m * (a / m) == a
    ensures 0.0 <= a / m
    ensures a < m ==> a / m < 1.0
    ensures a - m * (a / m).Floor as real == m * (a / m - (a / m).Floor as real)
  {
    var x := a / m;
    assert m * x == a;
    if a < m {
      var y := 1.0 - x;
      assert m * y == m - a;
    }
  }

  /** A fraction in [0, 1) of a positive real stays in [0, that real). */
  lemma FractionScaled(m: real, f: real)
    requires 0.0 < m && 0.0 <= f < 1.0
    ensures 0.0 <= m * f < m
  {
  }

  function Abs(t: real): real {
    if t < 0.0 then -t else t
  }

  /** The hand rotations drawn for a clock value: `direction` is -1 for a
      negative value, and each angle is computed from the magnitude. */
  datatype Hands = Hands(direction: int, second: real, minute: real, hour: real)

  /** The hands of a clock value, with the minute hand at the fractional
      minute of the hour and the hour hand at the fractional hour of the
      half day. */
  function ClockHands(time: real): (r: Hands)
    ensures r.direction == -1 <==> time < 0.0
    ensures r.direction == 1 <==> time >= 0.0
    ensures 0.0 <= r.second < 360.0 && 0.0 <= r.minute < 360.0 && 0.0 <= r.hour < 360.0
  {
    var t := Abs(time);
    Hands(if time < 0.0 then -1 else 1,
          Mod(t, 60.0) / 60.0 * 360.0,
          Mod(t / 60.0, 60.0) / 60.0 * 360.0,
          Mod(t / 3600.0, 12.0) / 12.0 * 360.0)
  }

  /** A clock value and its negation show the same angles turned the
      other way. */
  lemma HandsMirror(time: real)
    requires time > 0.0
    ensures ClockHands(-time).direction == -ClockHands(time).direction
    ensures ClockHands(-time).(direction := 1) == ClockHands(time)
  {
  }

  /** Within one hour the minute hand only moves forward. */
  lemma MinuteHandForward(t1: real, t2: real)
    requires 0.0 <= t1 <= t2 && (t1 / 3600.0).Floor == (t2 / 3600.0).Floor
    ensures ClockHands(t1).minute <= ClockHands(t2).minute
  {
  }

  /** Within one half day the hour hand only moves forward. */
  lemma HourHandForward(t1: real, t2: real)
    requires 0.0 <= t1 <= t2 && (t1 / 43200.0).Floor == (t2 / 43200.0).Floor
    ensures ClockHands(t1).hour <= ClockHands(t2).hour
  {
  }

  /** The minute-hand angle as the source computes it: the fractional
      minute, plus the seconds over 60 once more, so it runs ahead of the
      corrected angle by a tenth of a degree per second into the minute. */
  function MinuteAngleAsWritten(time: real): (r: real)
    ensures r == ClockHands(time).minute + Mod(Abs(time), 60.0) / 10.0
    ensures 0.0 <= r < 366.0
  {
    var t := Abs(time);
    ((Mod(t / 60.0, 60.0) + Mod(t, 60.0) / 60.0) / 60.0) * 360.0
  }

  /** The hour-hand angle as the source computes it: the fractional hour,
      plus the minutes over 60 once more, so it runs ahead of the
      corrected angle by half a degree per minute into the hour. */
  function HourAngleAsWritten(time: real): (r: real)
    ensures r == ClockHands(time).hour + Mod(Abs(time) / 60.0, 60.0) / 2.0
    ensures 0.0 <= r < 390.0
  {
    var t := Abs(time);
    ((Mod(t / 3600.0, 12.0) + Mod(t / 60.0, 60.0) / 60.0) / 12.0) * 360.0
  }

  /** As written, the minute hand steps backwards across a minute
      boundary (11.9 degrees at 59.5 s, 6 degrees at 60 s) and passes 360
      degrees near the end of an hour. */
  lemma MinuteHandAsWrittenJumpsBack()
    ensures MinuteAngleAsWritten(59.5) > MinuteAngleAsWritten(60.0)
    ensures MinuteAngleAsWritten(3599.5) > 360.0
  {
  }

  /** As written, the hour hand steps backwards across an hour boundary
      (about 60 degrees at 3599 s, 30 degrees at 3600 s). */
  lemma HourHandAsWrittenJumpsBack()
    ensures HourAngleAsWritten(3599.0) > HourAngleAsWritten(3600.0)
  {
  }
}

=== FILE: galaxy.dfy ===
/** The animated backdrop as a whole: a canvas size, the speed state read
    from the speed controls, and the star, asteroid and UFO pools, with
    the resize handler and one animation frame that updates the pools in
    the source's fixed order.
 */
module Galaxy {
  import opened SpeedMode
  import opened Stars
  import opened Asteroids
  import opened Ufos

  datatype Scene = Scene(width: nat, height: nat, speed: SpeedState, stars: seq<Star>,
                         asteroids: seq<Asteroid>, pool: UfoPool)

  /** Everything one animation frame consumes from outside the model: the
      wall clock (ms), the sine used for pulsing, and the random draws of
      the star, asteroid, spawn and beam steps. */
  datatype FrameInput = FrameInput(now: int, sine: real -> real, redraws: nat -> Redraw,
                                   rocks: nat -> AsteroidDraws, spawn: SpawnDraws,
                                   beams: nat -> real)
  {
    ghost predicate Valid() {
      ValidRedraws(redraws) && Asteroids.ValidDraws(rocks) && spawn.Valid()
    }
  }

  /** What holds of the scene between frames: every star is healthy,
      every asteroid is well formed and within the margin, every UFO is
      sound, and the speed mode is the one the speed classifies to. */
  predicate Invariant(sc: Scene) {
    && AllHealthy(sc.stars)
    && (forall k :: 0 <= k < |sc.asteroids| ==>
          WellFormed(sc.asteroids[k]) && !OffScreen(sc.asteroids[k], sc.width, sc.height))
    && (forall k :: 0 <= k < |sc.pool.ufos| ==> Sound(sc.pool.ufos[k]))
    && Consistent(sc.speed)
  }

  /** The backdrop as it starts: fresh pools for the canvas, no UFO yet
      and the last spawn time at 0, and the speed controls' initial 0.5
      applied. */
  function Start(w: nat, h: nat, present: bool, sd: StarDraws, ad: nat -> AsteroidDraws): (sc: Scene)
    requires Stars.ValidDraws(sd) && Asteroids.ValidDraws(ad)
    ensures Invariant(sc)
    ensures sc.speed.speed == 0.5 && sc.speed.mode == Normal
    ensures sc.pool == UfoPool([], 0)
    ensures |sc.asteroids| == AsteroidCount(w, h) && FieldCount(w, h) < |sc.stars|
  {
    Scene(w, h, UpdateSpeed(SpeedMode.Initial, 0.5, present), CreateStars(w, h, sd),
          CreateAsteroids(w, h, ad), UfoPool([], 0))
  }

  /** A new speed from the controls: only the speed state changes. */
  function SetSpeed(sc: Scene, speed: real, present: bool): (r: Scene)
    ensures r.speed.speed == speed && r.speed.mode == ModeOf(speed)
    ensures r.(speed := sc.speed) == sc
    ensures Invariant(sc) ==> Invariant(r)
  {
    sc.(speed := UpdateSpeed(sc.speed, speed, present))
  }

  /** The resize handler: the canvas takes the new size and the stars and
      asteroids are generated afresh for it; the UFOs, the last spawn time
      and the speed state are left as they were. */
  function Resize(sc: Scene, w: nat, h: nat, sd: StarDraws, ad: nat -> AsteroidDraws): (r: Scene)
    requires Stars.ValidDraws(sd) && Asteroids.ValidDraws(ad)
    ensures r.width == w && r.height == h
    ensures r.pool == sc.pool && r.speed == sc.speed
    ensures |r.asteroids| == AsteroidCount(w, h) && FieldCount(w, h) < |r.stars|
    ensures forall k :: 0 <= k < FieldCount(w, h) ==> r.stars[k] == FieldStar(w, h, sd.field(k))
    ensures 1 <= CountShooting(r.stars) <= 3
    ensures Invariant(sc) ==> Invariant(r)
  {
    Scene(w, h, sc.speed, CreateStars(w, h, sd), CreateAsteroids(w, h, ad), sc.pool)
  }

  /** One animation frame: stars, then asteroids, then the UFO spawn
      check, then the UFOs, the new UFO included. */
  function Frame(sc: Scene, f: FrameInput): (r: Scene)
    requires f.Valid()
    ensures (r.width, r.height, r.speed) == (sc.width, sc.height, sc.speed)
    ensures |r.stars| <= |sc.stars|
    ensures |r.asteroids| == |sc.asteroids|
    ensures |r.pool.ufos| <= |sc.pool.ufos| + 1
    ensures r.pool.lastUfoTime == sc.pool.lastUfoTime || r.pool.lastUfoTime == f.now
    ensures f.now - sc.pool.lastUfoTime < SpawnGap ==>
              r.pool.lastUfoTime == sc.pool.lastUfoTime && |r.pool.ufos| <= |sc.pool.ufos|
    ensures forall k :: 0 <= k < |r.asteroids| ==> !OffScreen(r.asteroids[k], r.width, r.height)
    ensures forall k :: 0 <= k < |r.pool.ufos| ==> !Gone(r.pool.ufos[k], r.width)
  {
    var w, h := sc.width, sc.height;
    var stars := UpdateStars(sc.stars, w, h, f.now, f.sine, f.redraws);
    var rocks := UpdateAsteroids(sc.asteroids, w, h, f.rocks);
    var spawned := CreateUfo(sc.pool, f.now, w, h, sc.speed, f.spawn);
    var ufos := UpdateUfos(spawned.ufos, w, f.beams);
    Scene(w, h, sc.speed, stars, rocks, UfoPool(ufos, spawned.lastUfoTime))
  }

  /** A frame keeps the scene invariant. */
  lemma FrameKeepsInvariant(sc: Scene, f: FrameInput)
    requires f.Valid() && Invariant(sc)
    ensures Invariant(Frame(sc, f))
  {
    var w, h := sc.width, sc.height;
    UpdateKeepsHealthy(sc.stars, 0, w, h, f.now as real / 1000.0, f.sine, f.redraws);
    NewUfoSound(w, h, sc.speed, f.spawn);
  }

  /** A frame's star pool is the star update of the whole pool at the
      frame's time in seconds. */
  lemma FrameStars(sc: Scene, f: FrameInput)
    requires f.Valid()
    ensures Frame(sc, f).stars
              == Stars.UpdateFrom(sc.stars, 0, sc.width, sc.height, f.now as real / 1000.0, f.sine, f.redraws)
  {
  }

  /** A frame leaves the field stars where they were, each twinkled once. */
  lemma FrameKeepsFields(sc: Scene, f: FrameInput)
    requires f.Valid()
    ensures Fields(Frame(sc, f).stars) == TwinkleAll(Fields(sc.stars), f.now as real / 1000.0, f.sine)
  {
    var seconds := f.now as real / 1000.0;
    FrameStars(sc, f);
    UpdateKeepsFields(sc.stars, 0, sc.width, sc.height, seconds, f.sine, f.redraws);
    assert sc.stars[0..] == sc.stars;
  }

  /** A frame never adds a shooting star. */
  lemma FrameAddsNoShooting(sc: Scene, f: FrameInput)
    requires f.Valid()
    ensures CountShooting(Frame(sc, f).stars) <= CountShooting(sc.stars)
  {
    var seconds := f.now as real / 1000.0;
    FrameStars(sc, f);
    UpdateNeverAddsShooting(sc.stars, 0, sc.width, sc.height, seconds, f.sine, f.redraws);
    assert sc.stars[0..] == sc.stars;
  }

  /** Because the spawn check runs before the UFO update, a UFO spawned
      in a frame is already moved once in that frame: unless that first
      step takes it past its far edge, the pool holds it one step on, in
      the speed mode of the frame. */
  lemma SpawnedStepsAtOnce(sc: Scene, f: FrameInput)
    requires f.Valid() && Spawns(sc.pool, f.now, f.spawn)
    ensures var u := NewUfo(sc.width, sc.height, sc.speed, f.spawn);
            var v := StepUfo(u, f.beams(|sc.pool.ufos|));
            !Gone(v, sc.width) ==>
              && v in Frame(sc, f).pool.ufos
              && v.x == u.x + u.speedX
              && v.mode == sc.speed.mode
    ensures Frame(sc, f).pool.lastUfoTime == f.now
  {
    var spawned := CreateUfo(sc.pool, f.now, sc.width, sc.height, sc.speed, f.spawn);
    var n := |sc.pool.ufos|;
    var v := StepUfo(NewUfo(sc.width, sc.height, sc.speed, f.spawn), f.beams(n));
    if !Gone(v, sc.width) {
      assert spawned.ufos[n] == NewUfo(sc.width, sc.height, sc.speed, f.spawn);
      KeptUnlessGone(spawned.ufos, 0, sc.width, f.beams, n);
    }
  }

  /** The scene after the given frames, oldest first. */
  function Run(sc: Scene, fs: seq<FrameInput>): Scene
    requires forall k :: 0 <= k < |fs| ==> fs[k].Valid()
    decreases |fs|
  {
    if fs == [] then sc else Frame(Run(sc, fs[..|fs| - 1]), fs[|fs| - 1])
  }

  /** Over any number of frames the asteroid population never changes,
      the star pool never grows, and the scene invariant holds
      throughout. */
  lemma {:induction false} RunKeeps(sc: Scene, fs: seq<FrameInput>)
    requires forall k :: 0 <= k < |fs| ==> fs[k].Valid()
    requires Invariant(sc)
    ensures |Run(sc, fs).asteroids| == |sc.asteroids|
    ensures |Run(sc, fs).stars| <= |sc.stars|
    ensures Invariant(Run(sc, fs))
    decreases |fs|
  {
    if fs != [] {
      var prefix := fs[..|fs| - 1];
      RunKeeps(sc, prefix);
      FrameKeepsInvariant(Run(sc, prefix), fs[|fs| - 1]);
    }
  }
}

=== FILE: random.dfy ===
/** Draws that stand in for the host's random source and trigonometry.

    Every `Math.random()` call of the animation becomes an explicit real
    parameter in [0, 1); every cosine or sine of a random angle becomes an
    explicit real in [-1, 1]. Ranges of generated attributes then follow
    from these two predicates alone.
 */
module Random {

  /** A value `Math.random()` can return. */
  predicate Unit(u: real) {
    0.0 <= u < 1.0
  }

  /** A value `Math.cos` or `Math.sin` can return. */
  predicate Trig(c: real) {
    -1.0 <= c <= 1.0
  }

  /** The value of `Math.PI * 2` as the host computes it. */
  const TwoPi: real := 6.283185307179586

  /** `Math.floor(u * n)`: a uniform index below `n`. */
  function Pick(u: real, n: nat): (k: nat)
    requires Unit(u) && 0 < n
    ensures k < n
    ensures k as real <= u * n as real < k as real + 1.0
  {
    Along(u, n as real).Floor
  }

  /** `u * span + low`: a uniform value in [low, low + span). */
  function Spread(u: real, low: real, span: real): (r: real)
    requires Unit(u) && 0.0 < span
    ensures low <= r < low + span
  {
    u * span + low
  }

  /** A product of non-negative reals is non-negative, and positive when
      both factors are. */
  lemma Product(a: real, b: real)
    requires 0.0 <= a && 0.0 <= b
    ensures 0.0 <= a * b
    ensures 0.0 < a && 0.0 < b ==> 0.0 < a * b
  {
  }

  /** `u * length`: a uniform position along a side of the given length. */
  function Along(u: real, length: real): (r: real)
    requires Unit(u) && 0.0 <= length
    ensures 0.0 <= r <= length
    ensures 0.0 < length ==> r < length
  {
    var rest := 1.0 - u;
    Product(u, length);
    Product(rest, length);
    assert length - u * length == rest * length;
    u * length
  }
}

=== FILE: speed_mode.dfy ===
/** The galaxy backdrop's speed classifier and the three mode cards.

    The backdrop keeps the last speed it was told about and a mode derived
    from it at the thresholds 0.95 and 1.5; each change re-highlights one
    of the three UFO effect cards, provided all three exist.
 */
module SpeedMode {

  datatype Mode = Normal | Lightspeed | Superluminal

  /** The `active` marks of the normal, lightspeed and superluminal
      effect cards. */
  datatype Cards = Cards(normal: bool, lightspeed: bool, superluminal: bool)

  /** Exactly one card is highlighted. */
  predicate ExactlyOne(c: Cards) {
    if c.normal then !c.lightspeed && !c.superluminal
    else c.lightspeed != c.superluminal
  }

  /** The card that stands for `m`. */
  predicate Shows(c: Cards, m: Mode) {
    match m
    case Normal => c.normal
    case Lightspeed => c.lightspeed
    case Superluminal => c.superluminal
  }

  /** The backdrop's classifier. */
  function ModeOf(speed: real): (m: Mode)
    ensures m == Superluminal <==> speed >= 1.5
    ensures m == Lightspeed <==> 0.95 <= speed < 1.5
    ensures m == Normal <==> speed < 0.95
  {
    if speed >= 1.5 then Superluminal
    else if speed >= 0.95 then Lightspeed
    else Normal
  }

  /** The order of the modes, slowest first. */
  function Rank(m: Mode): nat {
    match m
    case Normal => 0
    case Lightspeed => 1
    case Superluminal => 2
  }

  /** A faster speed never gets a slower mode. */
  lemma ModeMonotone(s: real, t: real)
    requires s <= t
    ensures Rank(ModeOf(s)) <= Rank(ModeOf(t))
  {
  }

  /** Clears all three cards and highlights the one for `m`; when a card
      is missing nothing is touched. */
  function Highlight(c: Cards, present: bool, m: Mode): (r: Cards)
    ensures present ==> ExactlyOne(r) && Shows(r, m)
    ensures !present ==> r == c
  {
    if !present then c
    else Cards(m == Normal, m == Lightspeed, m == Superluminal)
  }

  /** The backdrop's speed state: the last speed and its mode. */
  datatype SpeedState = SpeedState(speed: real, mode: Mode, cards: Cards)

  /** The mode is the one the classifier gives for the speed. */
  predicate Consistent(s: SpeedState) {
    s.mode == ModeOf(s.speed)
  }

  /** The state before any speed change: speed 0.5, normal mode, no card
      highlighted yet. */
  const Initial: SpeedState := SpeedState(0.5, Normal, Cards(false, false, false))

  /** Records a new speed, reclassifies it and highlights the matching
      card. */
  function UpdateSpeed(s: SpeedState, speed: real, present: bool): (r: SpeedState)
    ensures r.speed == speed && Consistent(r)
    ensures r.mode == Superluminal <==> speed >= 1.5
    ensures r.mode == Lightspeed <==> 0.95 <= speed < 1.5
    ensures r.mode == Normal <==> speed < 0.95
    ensures present ==> ExactlyOne(r.cards) && Shows(r.cards, r.mode)
    ensures !present ==> r.cards == s.cards
  {
    var m := ModeOf(speed);
    SpeedState(speed, m, Highlight(s.cards, present, m))
  }

  /** Whatever the cards were, a highlighted card always names the current
      mode and no other mode's card is lit. */
  lemma HighlightOnlyCurrent(s: SpeedState, speed: real, m: Mode)
    requires Shows(UpdateSpeed(s, speed, true).cards, m)
    ensures m == ModeOf(speed)
  {
  }
}

=== FILE: speed_panel.dfy ===
/** The relativity panel's own view of the speed: the slider/input value
    clamped to [0, 2], the superluminal flags at 1 and 1.5, and the effect
    card they select.
 */
module SpeedPanel {
  import opened SpeedMode

  /** The range check of a speed change: below 0 becomes 0, above 2
      becomes 2. */
  function Clamp(v: real): (r: real)
    ensures 0.0 <= r <= 2.0
    ensures v < 0.0 ==> r == 0.0
    ensures v > 2.0 ==> r == 2.0
    ensures 0.0 <= v <= 2.0 ==> r == v
  {
    if v < 0.0 then 0.0 else if v > 2.0 then 2.0 else v
  }

  /** Clamping twice changes nothing more, and clamping keeps order. */
  lemma ClampIdempotentMonotone(u: real, v: real)
    ensures Clamp(Clamp(v)) == Clamp(v)
    ensures u <= v ==> Clamp(u) <= Clamp(v)
  {
  }

  /** The panel's two flags. */
  datatype Flags = Flags(superluminal: bool, ultra: bool)

  /** The flags the Lorentz-factor calculation sets. */
  function FlagsOf(speed: real): (f: Flags)
    ensures f.superluminal <==> speed >= 1.0
    ensures f.ultra <==> speed >= 1.5
    ensures f.ultra ==> f.superluminal
  {
    Flags(speed >= 1.0, speed >= 1.5)
  }

  /** The card the flags select: ultra lights the superluminal card,
      superluminal alone the lightspeed card, otherwise the normal one. */
  function CardFor(f: Flags): (m: Mode)
    ensures m == Superluminal <==> f.ultra
    ensures m == Lightspeed <==> f.superluminal && !f.ultra
    ensures m == Normal <==> !f.superluminal && !f.ultra
  {
    if f.ultra then Superluminal else if f.superluminal then Lightspeed else Normal
  }

  /** The panel's state: its speed, its flags and the effect cards. */
  datatype Panel = Panel(speed: real, flags: Flags, cards: Cards)

  /** A speed change from the slider or the input: clamp, recompute the
      flags, re-highlight the card (only when all three cards exist). */
  function HandleSpeedChange(p: Panel, input: real, present: bool): (r: Panel)
    ensures 0.0 <= r.speed <= 2.0
    ensures 0.0 <= input <= 2.0 ==> r.speed == input
    ensures input < 0.0 ==> r.speed == 0.0
    ensures input > 2.0 ==> r.speed == 2.0
    ensures r.flags.superluminal <==> r.speed >= 1.0
    ensures r.flags.ultra <==> r.speed >= 1.5
    ensures present ==> ExactlyOne(r.cards)
    ensures present ==> (r.cards.superluminal <==> r.flags.ultra)
    ensures present ==> (r.cards.lightspeed <==> r.flags.superluminal && !r.flags.ultra)
    ensures present ==> (r.cards.normal <==> !r.flags.superluminal)
    ensures !present ==> r.cards == p.cards
  {
    var speed := Clamp(input);
    var flags := FlagsOf(speed);
    Panel(speed, flags, Highlight(p.cards, present, CardFor(flags)))
  }

  /** The panel and the backdrop classify the same speed alike except on
      [0.95, 1), where the backdrop already says lightspeed and the panel
      still says normal. */
  lemma ClassifiersDisagreeOnlyBelowOne(speed: real)
    ensures ModeOf(speed) != CardFor(FlagsOf(speed)) <==> 0.95 <= speed < 1.0
    ensures 0.95 <= speed < 1.0 ==> ModeOf(speed) == Lightspeed && CardFor(FlagsOf(speed)) == Normal
  {
  }
}

=== FILE: stars.dfy ===
/** The backdrop's star pool: twinkling field stars (uniform and clustered)
    and short-lived shooting stars, their generators and their per-frame
    update.
 */
module Stars {
  import opened Random
  import opened Bounce

  /** Number of entries in the star colour palette; index 0 is white. */
  const PaletteSize: nat := 13

  /** Limits of a field star's twinkle. */
  const Dim: real := 0.3
  const Bright: real := 1.0

  datatype Star =
    | Field(x: real, y: real, radius: real, color: nat, twinkleSpeed: real,
            brightness: real, direction: int, pulse: bool, pulseSpeed: real,
            currentRadius: real)
    | Shooting(x: real, y: real, radius: real, trailLength: real,
               speedX: real, speedY: real, lifespan: real, age: nat)

  // ---------------------------------------------------------------- draws

  /** The draws one uniform field star consumes. */
  datatype FieldDraws = FieldDraws(kind: real, radius: real, brightness: real,
                                   color: real, x: real, y: real, twinkle: real,
                                   direction: real, pulse: real, pulseSpeed: real)
  {
    predicate Valid() {
      && Unit(kind) && Unit(radius) && Unit(brightness) && Unit(color)
      && Unit(x) && Unit(y) && Unit(twinkle) && Unit(direction)
      && Unit(pulse) && Unit(pulseSpeed)
    }
  }

  /** The draws of one cluster: centre, radius and member count. */
  datatype ClusterDraws = ClusterDraws(x: real, y: real, radius: real, count: real)
  {
    predicate Valid() {
      Unit(x) && Unit(y) && Unit(radius) && Unit(count)
    }
  }

  /** The draws of one cluster member; `cos` and `sin` are those of its
      random angle. */
  datatype MemberDraws = MemberDraws(cos: real, sin: real, distance: real,
                                     radius: real, brightness: real, color: real,
                                     twinkle: real, direction: real, pulse: real,
                                     pulseSpeed: real)
  {
    predicate Valid() {
      && Trig(cos) && Trig(sin) && Unit(distance) && Unit(radius)
      && Unit(brightness) && Unit(color) && Unit(twinkle) && Unit(direction)
      && Unit(pulse) && Unit(pulseSpeed)
    }
  }

  /** The draws of one shooting star; `cos` and `sin` are those of its
      angle in [pi/8, 3pi/8], so both are positive. */
  datatype ShootingDraws = ShootingDraws(x: real, radius: real, trail: real,
                                         lifespan: real, speed: real,
                                         cos: real, sin: real)
  {
    predicate Valid() {
      && Unit(x) && Unit(radius) && Unit(trail) && Unit(lifespan) && Unit(speed)
      && 0.0 < cos <= 1.0 && 0.0 < sin <= 1.0
    }
  }

  /** Every draw one call of the star generator may consume, indexed by
      star, cluster and member. */
  datatype StarDraws = StarDraws(field: nat -> FieldDraws, cluster: nat -> ClusterDraws,
                                 member: (nat, nat) -> MemberDraws,
                                 shootingCount: real, shooting: nat -> ShootingDraws)

  ghost predicate ValidDraws(d: StarDraws) {
    && (forall i :: d.field(i).Valid())
    && (forall c :: d.cluster(c).Valid())
    && (forall c, k :: d.member(c, k).Valid())
    && Unit(d.shootingCount)
    && (forall i :: d.shooting(i).Valid())
  }

  // ----------------------------------------------------------- invariants

  /** The twinkle of a field star as a reflecting value. */
  function WaveOf(s: Star): Wave
    requires s.Field?
  {
    Wave(s.brightness, s.twinkleSpeed * s.direction as real)
  }

  /** A field star whose twinkle is well under way: it moves by a positive
      speed in direction +1 or -1 and sits in its reflecting band. */
  predicate Twinkling(s: Star)
    requires s.Field?
  {
    && 0.0 < s.twinkleSpeed
    && (s.direction == 1 || s.direction == -1)
    && InBand(WaveOf(s), Dim, Bright)
  }

  /** What every star of the pool satisfies between frames: field stars
      twinkle inside their band and shooting stars are not past their
      lifespan. */
  predicate Healthy(s: Star) {
    if s.Field? then Twinkling(s) else s.age as real <= s.lifespan
  }

  predicate AllHealthy(ss: seq<Star>) {
    forall k :: 0 <= k < |ss| ==> Healthy(ss[k])
  }

  /** Inside the canvas, edges included. */
  predicate Inside(s: Star, w: nat, h: nat) {
    0.0 <= s.x <= w as real && 0.0 <= s.y <= h as real
  }

  // ----------------------------------------------------------- generators

  /** A direction of +1 or -1, each half the time. */
  function Direction(u: real): (d: int)
    ensures d == 1 || d == -1
  {
    if u > 0.5 then 1 else -1
  }

  /** The size tier of a uniform field star: a radius and a starting
      brightness, from rare large bright stars to common small dim ones. */
  function Tier(kind: real, ur: real, ub: real): (rb: (real, real))
    requires Unit(kind) && Unit(ur) && Unit(ub)
    ensures 0.3 <= rb.0 < 5.0
    ensures Dim <= rb.1 <= Bright
    ensures kind <= 0.65 ==> rb.0 < 0.8
    ensures kind > 0.98 ==> 2.5 <= rb.0
  {
    if kind > 0.98 then (Spread(ur, 2.5, 2.5), Spread(ub, 0.85, 0.15))
    else if kind > 0.95 then (Spread(ur, 2.0, 2.0), Spread(ub, 0.8, 0.2))
    else if kind > 0.85 then (Spread(ur, 1.2, 1.0), Spread(ub, 0.6, 0.3))
    else if kind > 0.65 then (Spread(ur, 0.8, 0.7), Spread(ub, 0.5, 0.3))
    else (Spread(ur, 0.3, 0.5), Spread(ub, 0.3, 0.4))
  }

  /** The palette index of a field star: any of the 13 colours above
      radius 2, the first 8 above radius 1, else the first 5. */
  function ColorFor(radius: real, u: real): (c: nat)
    requires Unit(u)
    ensures c < PaletteSize
    ensures radius <= 2.0 ==> c < 8
    ensures radius <= 1.0 ==> c < 5
  {
    if radius > 2.0 then Pick(u, PaletteSize)
    else if radius > 1.0 then Pick(u, 8)
    else Pick(u, 5)
  }

  /** One uniform field star. */
  function FieldStar(w: nat, h: nat, d: FieldDraws): (s: Star)
    requires d.Valid()
    ensures s.Field? && Inside(s, w, h) && Twinkling(s)
    ensures 0.3 <= s.radius < 5.0 && s.currentRadius == s.radius
    ensures Dim <= s.brightness <= Bright
    ensures s.color < PaletteSize
    ensures s.radius <= 2.0 ==> s.color < 8
    ensures s.radius <= 1.0 ==> s.color < 5
    ensures 0.01 <= s.twinkleSpeed < 0.04
    ensures 0.005 <= s.pulseSpeed < 0.015
  {
    var rb := Tier(d.kind, d.radius, d.brightness);
    Field(Along(d.x, w as real), Along(d.y, h as real), rb.0, ColorFor(rb.0, d.color),
          Spread(d.twinkle, 0.01, 0.03), rb.1, Direction(d.direction),
          d.pulse > 0.7, Spread(d.pulseSpeed, 0.005, 0.01), rb.0)
  }

  /** One field star per 300 square pixels, rounded down. */
  function FieldCount(w: nat, h: nat): nat {
    w * h / 300
  }

  /** The uniform field stars of a `w` by `h` canvas. */
  function FieldStars(w: nat, h: nat, d: StarDraws): (r: seq<Star>)
    requires ValidDraws(d)
    ensures |r| == FieldCount(w, h)
    ensures forall k :: 0 <= k < |r| ==> r[k] == FieldStar(w, h, d.field(k))
  {
    seq(FieldCount(w, h), i requires 0 <= i => FieldStar(w, h, d.field(i)))
  }

  /** One cluster per 500000 square pixels, plus two. */
  function ClusterCount(w: nat, h: nat): nat {
    w * h / 500000 + 2
  }

  /** The number of members a cluster draws: 20 to 49. */
  function MemberCount(c: ClusterDraws): (n: nat)
    requires c.Valid()
    ensures 20 <= n <= 49
  {
    Pick(c.count, 30) + 20
  }

  /** A cluster member, placed at `distance`^2 times the cluster radius
      from the centre so that members crowd towards it. */
  function Member(w: nat, h: nat, c: ClusterDraws, m: MemberDraws): (s: Star)
    requires c.Valid() && m.Valid()
    ensures s.Field? && Twinkling(s) && s.currentRadius == s.radius
    ensures 0.2 <= s.radius < 1.0 && 0.4 <= s.brightness < 0.8 && s.color < 5
  {
    var cx := Along(c.x, w as real);
    var cy := Along(c.y, h as real);
    var spread := m.distance * m.distance * Spread(c.radius, 100.0, 150.0);
    var radius := Spread(m.radius, 0.2, 0.8);
    Field(cx + m.cos * spread, cy + m.sin * spread, radius, Pick(m.color, 5),
          Spread(m.twinkle, 0.01, 0.03), Spread(m.brightness, 0.4, 0.4),
          Direction(m.direction), m.pulse > 0.8, Spread(m.pulseSpeed, 0.005, 0.01),
          radius)
  }

  /** The stars the first `n` members of cluster `ci` contribute: a member
      that falls outside the canvas is skipped, not redrawn. */
  function ClusterMembers(w: nat, h: nat, d: StarDraws, ci: nat, n: nat): (r: seq<Star>)
    requires ValidDraws(d)
    ensures |r| <= n
    ensures forall k :: 0 <= k < |r| ==> r[k].Field? && Inside(r[k], w, h) && Twinkling(r[k])
    ensures forall k :: 0 <= k < |r| ==> r[k].radius < 1.0 && r[k].color < 5
    ensures (forall j :: 0 <= j < n ==> Inside(Member(w, h, d.cluster(ci), d.member(ci, j)), w, h))
            ==> |r| == n
    decreases n
  {
    if n == 0 then []
    else
      var prev := ClusterMembers(w, h, d, ci, n - 1);
      var s := Member(w, h, d.cluster(ci), d.member(ci, n - 1));
      if Inside(s, w, h) then prev + [s] else prev
  }

  /** The stars of the first `n` clusters, each drawing its own member
      count. */
  function Clusters(w: nat, h: nat, d: StarDraws, n: nat): (r: seq<Star>)
    requires ValidDraws(d)
    ensures |r| <= 49 * n
    ensures forall k :: 0 <= k < |r| ==> r[k].Field? && Inside(r[k], w, h) && Twinkling(r[k])
    ensures forall k :: 0 <= k < |r| ==> r[k].radius < 1.0 && r[k].color < 5
    decreases n
  {
    if n == 0 then []
    else Clusters(w, h, d, n - 1) + ClusterMembers(w, h, d, n - 1, MemberCount(d.cluster(n - 1)))
  }

  /** A shooting star entering from above the canvas. */
  function NewShootingStar(w: nat, d: ShootingDraws): (s: Star)
    requires d.Valid()
    ensures s.Shooting? && s.age == 0 && s.y == -20.0 && Healthy(s)
    ensures -0.25 * w as real <= s.x <= 1.25 * w as real
    ensures 1.0 <= s.radius < 2.0 && 50.0 <= s.trailLength < 100.0
    ensures 100.0 <= s.lifespan < 300.0
    ensures 0.0 < s.speedX < 5.0 && 0.0 < s.speedY < 5.0
  {
    var speed := Spread(d.speed, 3.0, 2.0);
    Shooting(Along(d.x, w as real * 1.5) - w as real * 0.25, -20.0, Spread(d.radius, 1.0, 1.0),
             Spread(d.trail, 50.0, 50.0), d.cos * speed, d.sin * speed,
             Spread(d.lifespan, 100.0, 200.0), 0)
  }

  /** The initial shooting stars: one to three of them. */
  function ShootingStars(w: nat, d: StarDraws): (r: seq<Star>)
    requires ValidDraws(d)
    ensures 1 <= |r| <= 3
    ensures forall k :: 0 <= k < |r| ==> r[k] == NewShootingStar(w, d.shooting(k))
  {
    seq(Pick(d.shootingCount, 3) + 1, i requires 0 <= i => NewShootingStar(w, d.shooting(i)))
  }

  /** The whole pool for a fresh canvas: the uniform field stars first,
      then the cluster stars, then the shooting stars. */
  function CreateStars(w: nat, h: nat, d: StarDraws): (r: seq<Star>)
    requires ValidDraws(d)
    ensures AllHealthy(r)
    ensures FieldCount(w, h) + 1 <= |r|
    ensures forall k :: 0 <= k < FieldCount(w, h) ==> r[k] == FieldStar(w, h, d.field(k))
    ensures forall k :: 0 <= k < |r| && r[k].Field? ==> Inside(r[k], w, h)
    ensures 1 <= CountShooting(r) <= 3
  {
    var f := FieldStars(w, h, d);
    var c := Clusters(w, h, d, ClusterCount(w, h));
    var s := ShootingStars(w, d);
    CountShootingAppend(f, c);
    CountShootingAppend(f + c, s);
    NoShooting(f);
    NoShooting(c);
    AllShooting(s);
    f + c + s
  }

  // ------------------------------------------------------------- counting

  /** The number of shooting stars in a pool. */
  function CountShooting(ss: seq<Star>): nat
    decreases |ss|
  {
    if ss == [] then 0
    else CountShooting(ss[..|ss| - 1]) + (if ss[|ss| - 1].Shooting? then 1 else 0)
  }

  /** The field stars of a pool, in order. */
  function Fields(ss: seq<Star>): (r: seq<Star>)
    ensures |r| <= |ss|
    ensures forall k :: 0 <= k < |r| ==> r[k].Field?
    decreases |ss|
  {
    if ss == [] then []
    else Fields(ss[..|ss| - 1]) + (if ss[|ss| - 1].Field? then [ss[|ss| - 1]] else [])
  }

  lemma {:induction false} CountShootingAppend(a: seq<Star>, b: seq<Star>)
    ensures CountShooting(a + b) == CountShooting(a) + CountShooting(b)
    decreases |b|
  {
    if b != [] {
      var b' := b[..|b| - 1];
      assert (a + b)[..|a + b| - 1] == a + b';
      CountShootingAppend(a, b');
    } else {
      assert a + b == a;
    }
  }

  lemma {:induction false} FieldsAppend(a: seq<Star>, b: seq<Star>)
    ensures Fields(a + b) == Fields(a) + Fields(b)
    decreases |b|
  {
    if b != [] {
      var b' := b[..|b| - 1];
      assert (a + b)[..|a + b| - 1] == a + b';
      FieldsAppend(a, b');
    } else {
      assert a + b == a;
    }
  }

  lemma {:induction false} NoShooting(ss: seq<Star>)
    requires forall k :: 0 <= k < |ss| ==> ss[k].Field?
    ensures CountShooting(ss) == 0
    decreases |ss|
  {
    if ss != [] {
      NoShooting(ss[..|ss| - 1]);
    }
  }

  lemma {:induction false} AllShooting(ss: seq<Star>)
    requires forall k :: 0 <= k < |ss| ==> ss[k].Shooting?
    ensures CountShooting(ss) == |ss|
    decreases |ss|
  {
    if ss != [] {
      AllShooting(ss[..|ss| - 1]);
    }
  }

  // --------------------------------------------------------------- update

  /** The draws a shooting star consumes when it is gone: the coin that
      decides its respawn and the attributes of its successor. */
  datatype Redraw = Redraw(respawn: real, next: ShootingDraws)
  {
    predicate Valid() {
      Unit(respawn) && next.Valid()
    }
  }

  /** One frame of a field star: brightness moves by its twinkle speed in
      its direction, which flips at the limits; a pulsing star's drawn
      radius follows `wave`, the sine of the wall-clock time in seconds
      times its pulse speed. */
  function Twinkle(s: Star, wave: real): (t: Star)
    requires s.Field?
    ensures t.Field? && (t.x, t.y, t.radius, t.color) == (s.x, s.y, s.radius, s.color)
    ensures t.twinkleSpeed == s.twinkleSpeed && t.pulse == s.pulse && t.pulseSpeed == s.pulseSpeed
    ensures t.brightness == s.brightness + s.twinkleSpeed * s.direction as real
    ensures Turns(t.brightness, Dim, Bright) ==> t.direction == -s.direction
    ensures !Turns(t.brightness, Dim, Bright) ==> t.direction == s.direction
    ensures !s.pulse ==> t.currentRadius == s.radius
  {
    var b := s.brightness + s.twinkleSpeed * s.direction as real;
    var dir := if Turns(b, Dim, Bright) then -s.direction else s.direction;
    var current := if s.pulse then s.radius * (1.0 + 0.2 * wave) else s.radius;
    s.(brightness := b, direction := dir, currentRadius := current)
  }

  /** The sine a field star's pulse reads at `seconds`. */
  function PulseWave(s: Star, seconds: real, sine: real -> real): real
    requires s.Field?
  {
    sine(seconds * s.pulseSpeed)
  }

  /** The twinkle of a field star is the shared reflecting boundary on
      [0.3, 1]. */
  lemma TwinkleReflects(s: Star, wave: real)
    requires s.Field? && (s.direction == 1 || s.direction == -1) && 0.0 < s.twinkleSpeed
    ensures WaveOf(Twinkle(s, wave)) == Reflect(WaveOf(s), Dim, Bright)
  {
  }

  /** A twinkling star keeps twinkling, so its brightness never leaves
      [0.3 - twinkleSpeed, 1 + twinkleSpeed]. */
  lemma TwinkleStaysInBand(s: Star, wave: real)
    requires s.Field? && Twinkling(s)
    ensures Twinkling(Twinkle(s, wave))
    ensures Dim - s.twinkleSpeed <= Twinkle(s, wave).brightness <= Bright + s.twinkleSpeed
  {
  }

  /** A pulsing star's drawn radius stays within 20% of its radius. */
  lemma PulseBounded(s: Star, wave: real)
    requires s.Field? && 0.0 < s.radius && Trig(wave)
    ensures 0.8 * s.radius <= Twinkle(s, wave).currentRadius <= 1.2 * s.radius
  {
    if s.pulse {
      var c := Twinkle(s, wave).currentRadius;
      var above, below := 1.0 - wave, 1.0 + wave;
      assert 0.0 <= above * s.radius && 0.0 <= below * s.radius;
      assert c == 0.8 * s.radius + 0.2 * (below * s.radius);
      assert c == 1.2 * s.radius - 0.2 * (above * s.radius);
    }
  }

  /** A shooting star that is past the right edge, past the bottom edge
      (50px margin) or older than its lifespan. */
  predicate Spent(s: Star, w: nat, h: nat): (b: bool)
    requires s.Shooting?
    ensures !b ==> Healthy(s)
    ensures s.x > w as real + 50.0 || s.y > h as real + 50.0 ==> b
  {
    s.x > w as real + 50.0 || s.y > h as real + 50.0 || s.age as real > s.lifespan
  }

  /** A shooting star moved one frame and one frame older. */
  function Fly(s: Star): (t: Star)
    requires s.Shooting?
    ensures t.Shooting? && t.age == s.age + 1
    ensures t.x - s.x == s.speedX && t.y - s.y == s.speedY
    ensures t.(x := s.x, y := s.y, age := s.age) == s
  {
    s.(x := s.x + s.speedX, y := s.y + s.speedY, age := s.age + 1)
  }

  /** The stars one star of the pool becomes after a frame: a field star
      twinkles in place; a shooting star flies, and once spent is replaced
      in place by a fresh one when the coin exceeds 0.7 or removed. */
  function StepStar(s: Star, w: nat, h: nat, seconds: real, sine: real -> real, r: Redraw): (out: seq<Star>)
    requires r.Valid()
    ensures |out| <= 1
    ensures s.Field? ==> out == [Twinkle(s, PulseWave(s, seconds, sine))]
    ensures s.Shooting? && !Spent(Fly(s), w, h) ==> out == [Fly(s)]
    ensures s.Shooting? && Spent(Fly(s), w, h) ==>
              out == (if r.respawn > 0.7 then [NewShootingStar(w, r.next)] else [])
  {
    if s.Field? then [Twinkle(s, PulseWave(s, seconds, sine))]
    else
      var t := Fly(s);
      if !Spent(t, w, h) then [t]
      else if r.respawn > 0.7 then [NewShootingStar(w, r.next)]
      else []
  }

  /** The frame's redraws are all valid. */
  ghost predicate ValidRedraws(r: nat -> Redraw) {
    forall i :: r(i).Valid()
  }

  /** One frame of the stars from index `i` on; the star at index `k`
      consumes the redraw `r(k)`. The source walks the pool backwards and
      splices in place, which leaves the same survivors in the same
      order. */
  function UpdateFrom(ss: seq<Star>, i: nat, w: nat, h: nat, seconds: real,
                      sine: real -> real, r: nat -> Redraw): (out: seq<Star>)
    requires i <= |ss| && ValidRedraws(r)
    ensures |out| <= |ss| - i
    decreases |ss| - i
  {
    if i == |ss| then []
    else StepStar(ss[i], w, h, seconds, sine, r(i)) + UpdateFrom(ss, i + 1, w, h, seconds, sine, r)
  }

  /** One frame of the whole star pool at wall-clock time `now`
      (milliseconds). */
  function UpdateStars(ss: seq<Star>, w: nat, h: nat, now: int, sine: real -> real,
                       r: nat -> Redraw): (out: seq<Star>)
    requires ValidRedraws(r)
    ensures |out| <= |ss|
  {
    UpdateFrom(ss, 0, w, h, now as real / 1000.0, sine, r)
  }

  /** Every field star twinkled in place, in order. */
  function TwinkleAll(ss: seq<Star>, seconds: real, sine: real -> real): (out: seq<Star>)
    requires forall k :: 0 <= k < |ss| ==> ss[k].Field?
    ensures |out| == |ss|
    ensures forall k :: 0 <= k < |ss| ==> out[k] == Twinkle(ss[k], PulseWave(ss[k], seconds, sine))
  {
    seq(|ss|, k requires 0 <= k < |ss| => Twinkle(ss[k], PulseWave(ss[k], seconds, sine)))
  }

  /** Twinkling a concatenation twinkles each part. */
  lemma TwinkleAllAppend(a: seq<Star>, b: seq<Star>, seconds: real, sine: real -> real)
    requires forall k :: 0 <= k < |a| ==> a[k].Field?
    requires forall k :: 0 <= k < |b| ==> b[k].Field?
    ensures TwinkleAll(a + b, seconds, sine) == TwinkleAll(a, seconds, sine) + TwinkleAll(b, seconds, sine)
  {
  }

  /** One star's step keeps its field star, twinkled, and yields no other
      field star. */
  lemma StepFields(s: Star, w: nat, h: nat, seconds: real, sine: real -> real, r: Redraw)
    requires r.Valid()
    ensures Fields(StepStar(s, w, h, seconds, sine, r)) == TwinkleAll(Fields([s]), seconds, sine)
  {
  }

  /** A frame never adds, removes or moves a field star: the field stars
      after it are exactly the ones before it, each twinkled once. */
  lemma {:induction false} UpdateKeepsFields(ss: seq<Star>, i: nat, w: nat, h: nat, seconds: real,
                                             sine: real -> real, r: nat -> Redraw)
    requires i <= |ss| && ValidRedraws(r)
    ensures Fields(UpdateFrom(ss, i, w, h, seconds, sine, r)) == TwinkleAll(Fields(ss[i..]), seconds, sine)
    decreases |ss| - i
  {
    if i == |ss| {
      assert ss[i..] == [];
    } else {
      var x := ss[i];
      var head := StepStar(x, w, h, seconds, sine, r(i));
      var tail := UpdateFrom(ss, i + 1, w, h, seconds, sine, r);
      var before := Fields(ss[i + 1..]);
      calc {
        Fields(UpdateFrom(ss, i, w, h, seconds, sine, r));
        Fields(head + tail);
        { FieldsAppend(head, tail); }
        Fields(head) + Fields(tail);
        { StepFields(x, w, h, seconds, sine, r(i));
          UpdateKeepsFields(ss, i + 1, w, h, seconds, sine, r); }
        TwinkleAll(Fields([x]), seconds, sine) + TwinkleAll(before, seconds, sine);
        { TwinkleAllAppend(Fields([x]), before, seconds, sine); }
        TwinkleAll(Fields([x]) + before, seconds, sine);
        { FieldsAppend([x], ss[i + 1..]);
          assert ss[i..] == [x] + ss[i + 1..]; }
        TwinkleAll(Fields(ss[i..]), seconds, sine);
      }
    }
  }

  /** A frame keeps every star healthy: twinkling field stars stay in
      their band, surviving shooting stars are at most their lifespan old,
      and respawned ones start at age 0 just above the canvas. */
  lemma {:induction false} UpdateKeepsHealthy(ss: seq<Star>, i: nat, w: nat, h: nat, seconds: real,
                                              sine: real -> real, r: nat -> Redraw)
    requires i <= |ss| && ValidRedraws(r) && AllHealthy(ss)
    ensures AllHealthy(UpdateFrom(ss, i, w, h, seconds, sine, r))
    decreases |ss| - i
  {
    if i < |ss| {
      UpdateKeepsHealthy(ss, i + 1, w, h, seconds, sine, r);
      if ss[i].Field? {
        assert Healthy(ss[i]);
        TwinkleStaysInBand(ss[i], PulseWave(ss[i], seconds, sine));
      }
    }
  }

  /** Shooting stars never multiply: a frame leaves at most as many as
      before. */
  lemma {:induction false} UpdateNeverAddsShooting(ss: seq<Star>, i: nat, w: nat, h: nat, seconds: real,
                                                   sine: real -> real, r: nat -> Redraw)
    requires i <= |ss| && ValidRedraws(r)
    ensures CountShooting(UpdateFrom(ss, i, w, h, seconds, sine, r)) <= CountShooting(ss[i..])
    decreases |ss| - i
  {
    if i == |ss| {
      assert ss[i..] == [];
    } else {
      var head := StepStar(ss[i], w, h, seconds, sine, r(i));
      UpdateNeverAddsShooting(ss, i + 1, w, h, seconds, sine, r);
      CountShootingAppend(head, UpdateFrom(ss, i + 1, w, h, seconds, sine, r));
      assert ss[i..] == [ss[i]] + ss[i + 1..];
      CountShootingAppend([ss[i]], ss[i + 1..]);
      assert [ss[i]][..0] == [];
      if head != [] {
        assert head == [head[0]];
        assert head[..0] == [];
      }
    }
  }

  /** Concatenation regroups freely. */
  lemma Regroup<T>(a: seq<T>, b: seq<T>, c: seq<T>)
    ensures a + (b + c) == (a + b) + c
  {
  }

  /** The update of a pool splits at any index: the update of the stars
      before it, then the update of the stars from it on. So each star's
      outcome lands in its own slot. */
  lemma {:induction false} UpdateSplits(ss: seq<Star>, i: nat, j: nat, w: nat, h: nat, seconds: real,
                                        sine: real -> real, r: nat -> Redraw)
    requires i <= j <= |ss| && ValidRedraws(r)
    ensures UpdateFrom(ss, i, w, h, seconds, sine, r)
              == UpdateFrom(ss[..j], i, w, h, seconds, sine, r) + UpdateFrom(ss, j, w, h, seconds, sine, r)
    decreases j - i
  {
    var pre := ss[..j];
    if i < j {
      var head := StepStar(ss[i], w, h, seconds, sine, r(i));
      var middle := UpdateFrom(pre, i + 1, w, h, seconds, sine, r);
      assert pre[i] == ss[i];
      assert UpdateFrom(pre, i, w, h, seconds, sine, r) == head + middle;
      UpdateSplits(ss, i + 1, j, w, h, seconds, sine, r);
      Regroup(head, middle, UpdateFrom(ss, j, w, h, seconds, sine, r));
    } else {
      assert UpdateFrom(pre, i, w, h, seconds, sine, r) == [];
    }
  }

  /** A shooting star that is not spent after flying survives the frame,
      flown, right after what the stars before it became; a spent one is
      replaced in that same slot when its coin exceeds 0.7, and otherwise
      leaves no star there. */
  lemma ShootingKeptUnlessSpent(ss: seq<Star>, j: nat, w: nat, h: nat, seconds: real,
                                sine: real -> real, r: nat -> Redraw)
    requires j < |ss| && ValidRedraws(r) && ss[j].Shooting?
    ensures var out := UpdateFrom(ss, 0, w, h, seconds, sine, r);
            var slot := |UpdateFrom(ss[..j], 0, w, h, seconds, sine, r)|;
            && (!Spent(Fly(ss[j]), w, h) ==> slot < |out| && out[slot] == Fly(ss[j]))
            && (Spent(Fly(ss[j]), w, h) && r(j).respawn > 0.7 ==>
                  slot < |out| && out[slot] == NewShootingStar(w, r(j).next))
            && (Spent(Fly(ss[j]), w, h) && r(j).respawn <= 0.7 ==>
                  out == UpdateFrom(ss[..j], 0, w, h, seconds, sine, r)
                         + UpdateFrom(ss, j + 1, w, h, seconds, sine, r))
  {
    var pre := UpdateFrom(ss[..j], 0, w, h, seconds, sine, r);
    var step := StepStar(ss[j], w, h, seconds, sine, r(j));
    var after := UpdateFrom(ss, j + 1, w, h, seconds, sine, r);
    UpdateSplits(ss, 0, j, w, h, seconds, sine, r);
    assert UpdateFrom(ss, j, w, h, seconds, sine, r) == step + after;
    Regroup(pre, step, after);
    if step != [] {
      assert (pre + step + after)[|pre|] == step[0];
    }
  }
}

=== FILE: ufos.dfy ===
/** The backdrop's UFOs: rate-limited arrivals whose speed and colours
    follow the speed mode at the moment they spawn, with a glow that
    oscillates, a tractor beam on a timer, an optional growing black hole
    in superluminal mode, and removal once past the far edge.
 */
module Ufos {
  import opened Random
  import opened Bounce
  import opened SpeedMode

  /** The tractor beam: whether it is on, how long it has been on (ms, in
      steps of 16) and how long it lasts once on. */
  datatype Beam = Beam(active: bool, time: int, duration: real)

  /** A UFO. Its colours are a fixed function of the `mode` it spawned in;
      `glow` is its glow intensity with the signed rate it changes by. */
  datatype Ufo = Ufo(x: real, y: real, size: real, speedX: real,
                     wobbleAmplitude: real, wobbleFrequency: real, wobbleOffset: real,
                     glow: Wave, beam: Beam, mode: Mode,
                     blackHole: bool, holeSize: real, holeMax: real,
                     timeDistortion: bool, timeDirection: int)

  /** The UFOs in flight and the wall-clock time (ms) of the last spawn. */
  datatype UfoPool = UfoPool(ufos: seq<Ufo>, lastUfoTime: int)

  /** Minimum wall-clock gap between two spawns, in milliseconds. */
  const SpawnGap: int := 10000

  /** Milliseconds a beam timer advances per frame. */
  const FrameMs: int := 16

  /** How much a black hole grows per frame. */
  const HoleGrowth: real := 0.5

  /** Rate of the glow oscillation. */
  const GlowRate: real := 0.02

  /** The draws one spawn check may consume. */
  datatype SpawnDraws = SpawnDraws(gate: real, side: real, y: real, size: real, speed: real,
                                   amplitude: real, frequency: real, phase: real,
                                   duration: real, hole: real, holeMax: real)
  {
    predicate Valid() {
      && Unit(gate) && Unit(side) && Unit(y) && Unit(size) && Unit(speed)
      && Unit(amplitude) && Unit(frequency) && Unit(phase) && Unit(duration)
      && Unit(hole) && Unit(holeMax)
    }
  }

  /** The speed multiplier the mode table gives: each mode's entry starts
      at its base (1 at speed 0, 2 at 0.95, 3.5 at 1.5) and rises with the
      speed from there. */
  function Multiplier(m: Mode, speed: real): (r: real)
    ensures m == Normal && 0.0 <= speed ==> 1.0 <= r
    ensures m == Lightspeed && 0.95 <= speed ==> 2.0 <= r
    ensures m == Superluminal && 1.5 <= speed ==> 3.5 <= r
    ensures m == Normal && speed == 0.0 ==> r == 1.0
    ensures m == Lightspeed && speed == 0.95 ==> r == 2.0
    ensures m == Superluminal && speed == 1.5 ==> r == 3.5
  {
    match m
    case Superluminal => 3.5 + (speed - 1.5) * 2.0
    case Lightspeed => 2.0 + (speed - 0.95) * 3.0
    case Normal => 1.0 + speed
  }

  /** For a mode the classifier derived from the same speed, the table
      gives at least 2 in lightspeed mode and at least 3.5 in superluminal
      mode; the multiplier is positive exactly when the speed exceeds -1. */
  lemma MultiplierFloors(speed: real)
    ensures ModeOf(speed) == Lightspeed ==> 2.0 <= Multiplier(ModeOf(speed), speed) < 3.65
    ensures ModeOf(speed) == Superluminal ==> 3.5 <= Multiplier(ModeOf(speed), speed)
    ensures ModeOf(speed) == Normal ==> Multiplier(ModeOf(speed), speed) < 1.95
    ensures 0.0 < Multiplier(ModeOf(speed), speed) <==> speed > -1.0
  {
  }

  /** A spawn check lets a UFO through: at least 10 s since the last one,
      and the 10% gate draw succeeds. */
  predicate Spawns(p: UfoPool, now: int, d: SpawnDraws) {
    now - p.lastUfoTime >= SpawnGap && d.gate <= 0.1
  }

  lemma FactorAtLeastOne(u: real, m: real)
    requires 1.0 <= u
    ensures 0.0 < m ==> m <= u * m
    ensures m <= 0.0 ==> u * m <= 0.0
  {
  }

  /** The horizontal speed before its sign: a factor in [1, 3) times the
      multiplier, so never below a positive multiplier. */
  function Cruise(u: real, k: real): (v: real)
    requires Unit(u)
    ensures 0.0 < k ==> k <= v
    ensures k <= 0.0 ==> v <= 0.0
  {
    var pace := Spread(u, 1.0, 2.0);
    assert 1.0 <= pace;
    var v := pace * k;
    FactorAtLeastOne(pace, k);
    assert 0.0 < k ==> k <= v;
    v
  }

  /** A new UFO entering from the left or right edge. */
  function NewUfo(w: nat, h: nat, s: SpeedState, d: SpawnDraws): (u: Ufo)
    requires d.Valid()
    ensures u.x == (if d.side > 0.5 then -50.0 else w as real + 50.0)
    ensures 0.15 * h as real <= u.y <= 0.85 * h as real
    ensures 15.0 <= u.size < 25.0 && u.mode == s.mode
    ensures 0.0 < Multiplier(s.mode, s.speed) ==>
              (u.speedX > 0.0 <==> d.side > 0.5) && (u.speedX < 0.0 <==> d.side <= 0.5)
    ensures Consistent(s) && s.mode == Lightspeed ==> u.speedX >= 2.0 || u.speedX <= -2.0
    ensures Consistent(s) && s.mode == Superluminal ==> u.speedX >= 3.5 || u.speedX <= -3.5
    ensures u.blackHole ==> s.mode == Superluminal
    ensures u.holeSize == 0.0 && 30.0 <= u.holeMax < 80.0
    ensures !u.beam.active && u.beam.time == 0 && 1000.0 <= u.beam.duration < 3000.0
    ensures u.glow == Wave(0.0, GlowRate)
    ensures u.timeDistortion <==> s.mode != Normal
    ensures u.timeDirection == (if s.mode == Superluminal then -1 else 1)
  {
    var fromLeft := d.side > 0.5;
    var k := Multiplier(s.mode, s.speed);
    var v := Cruise(d.speed, k);
    MultiplierFloors(s.speed);
    Ufo(if fromLeft then -50.0 else w as real + 50.0,
        Along(d.y, h as real * 0.7) + h as real * 0.15,
        Spread(d.size, 15.0, 10.0),
        if fromLeft then v else -v,
        Spread(d.amplitude, 0.5, 1.0), Spread(d.frequency, 0.02, 0.05), d.phase * TwoPi,
        Wave(0.0, GlowRate), Beam(false, 0, Spread(d.duration, 1000.0, 2000.0)), s.mode,
        s.mode == Superluminal && d.hole > 0.5, 0.0, Spread(d.holeMax, 30.0, 50.0),
        s.mode != Normal, if s.mode == Superluminal then -1 else 1)
  }

  /** The spawn check run once per frame at wall-clock time `now` (ms). */
  function CreateUfo(p: UfoPool, now: int, w: nat, h: nat, s: SpeedState, d: SpawnDraws): (r: UfoPool)
    requires d.Valid()
    ensures now - p.lastUfoTime < SpawnGap ==> r == p
    ensures !Spawns(p, now, d) ==> r == p
    ensures Spawns(p, now, d) ==>
              && r.ufos == p.ufos + [NewUfo(w, h, s, d)]
              && r.lastUfoTime == now
    ensures |p.ufos| <= |r.ufos| <= |p.ufos| + 1
    ensures r.lastUfoTime != p.lastUfoTime ==> |r.ufos| == |p.ufos| + 1
  {
    if now - p.lastUfoTime < SpawnGap then p
    else if d.gate > 0.1 then p
    else UfoPool(p.ufos + [NewUfo(w, h, s, d)], now)
  }

  /** Two spawn checks less than 10 s apart never both add a UFO, whatever
      the draws. */
  lemma NoSpawnWithinGap(p: UfoPool, t1: int, t2: int, w: nat, h: nat, s: SpeedState,
                         d1: SpawnDraws, d2: SpawnDraws)
    requires d1.Valid() && d2.Valid() && t1 <= t2 < t1 + SpawnGap
    requires |CreateUfo(p, t1, w, h, s, d1).ufos| == |p.ufos| + 1
    ensures var q := CreateUfo(p, t1, w, h, s, d1);
            CreateUfo(q, t2, w, h, s, d2) == q
  {
  }

  // --------------------------------------------------------------- update

  /** One frame of the beam timer: an inactive beam switches on when the
      draw exceeds 0.995, restarting its timer; an active one advances by
      16 ms and switches off once its time reaches its duration. */
  function StepBeam(b: Beam, draw: real): (r: Beam)
    ensures r.duration == b.duration
    ensures b.active ==> r.time == b.time + FrameMs && (r.active <==> r.time as real < b.duration)
    ensures !b.active && draw > 0.995 ==> r.time == FrameMs && (r.active <==> (FrameMs as real) < b.duration)
    ensures !b.active && draw <= 0.995 ==> r == b
  {
    var started := if !b.active && draw > 0.995 then b.(active := true, time := 0) else b;
    if started.active then
      var t := started.time + FrameMs;
      started.(time := t, active := !(t as real >= started.duration))
    else started
  }

  /** The beam after one frame per draw, oldest draw first. */
  function RunBeam(b: Beam, draws: seq<real>): (r: Beam)
    ensures r.duration == b.duration
    decreases |draws|
  {
    if draws == [] then b else StepBeam(RunBeam(b, draws[..|draws| - 1]), draws[|draws| - 1])
  }

  /** A beam that has just been switched on stays on for exactly as many
      frames as its duration allows: after `n` frames its time is 16n and
      it is on exactly when 16n is below its duration, provided it did not
      already switch off one frame earlier. */
  lemma {:induction false} BeamLasts(b: Beam, draws: seq<real>)
    requires b.active && b.time == 0
    requires |draws| == 0 || ((|draws| - 1) * FrameMs) as real < b.duration
    ensures RunBeam(b, draws).time == |draws| * FrameMs
    ensures RunBeam(b, draws).active <==> ((|draws| * FrameMs) as real < b.duration || |draws| == 0)
    decreases |draws|
  {
    if draws != [] {
      var prefix := draws[..|draws| - 1];
      if prefix != [] {
        assert ((|prefix| - 1) * FrameMs) as real < ((|draws| - 1) * FrameMs) as real;
      }
      BeamLasts(b, prefix);
      var before := RunBeam(b, prefix);
      assert before.active && before.time == |prefix| * 16;
      assert (|draws| * FrameMs) as real == before.time as real + FrameMs as real;

    }
  }

  /** One frame of a UFO: it flies by its speed, its wobble phase
      advances, its glow reflects inside [0, 1], its beam timer runs, and
      an active black hole of a superluminal UFO grows by 0.5 while below
      its maximum. */
  function StepUfo(u: Ufo, draw: real): (v: Ufo)
    ensures v.x - u.x == u.speedX && v.speedX == u.speedX
    ensures v.wobbleOffset - u.wobbleOffset == u.wobbleFrequency
    ensures v.glow == Reflect(u.glow, 0.0, 1.0) && v.beam == StepBeam(u.beam, draw)
    ensures v.holeSize != u.holeSize ==>
              u.blackHole && u.mode == Superluminal && u.holeSize < u.holeMax
              && v.holeSize == u.holeSize + HoleGrowth
    ensures u.blackHole && u.mode == Superluminal && u.holeSize < u.holeMax ==>
              v.holeSize == u.holeSize + HoleGrowth
    ensures (v.y, v.size, v.mode, v.blackHole, v.holeMax) == (u.y, u.size, u.mode, u.blackHole, u.holeMax)
  {
    var grows := u.blackHole && u.mode == Superluminal && u.holeSize < u.holeMax;
    u.(x := u.x + u.speedX, wobbleOffset := u.wobbleOffset + u.wobbleFrequency,
       glow := Reflect(u.glow, 0.0, 1.0), beam := StepBeam(u.beam, draw),
       holeSize := if grows then u.holeSize + HoleGrowth else u.holeSize)
  }

  /** More than 100px past the edge the UFO flies towards. */
  predicate Gone(u: Ufo, w: nat): (b: bool)
    ensures b ==> u.speedX != 0.0
    ensures -100.0 <= u.x <= w as real + 100.0 ==> !b
  {
    (u.speedX > 0.0 && u.x > w as real + 100.0) || (u.speedX < 0.0 && u.x < -100.0)
  }

  /** The invariant of every UFO in flight: its glow is in the band of
      [0, 1] and moves at the fixed rate, its black hole never exceeds its
      maximum by more than one growth step, only superluminal UFOs have a
      black hole, and the beam timer is a non-negative multiple of 16. */
  predicate Sound(u: Ufo) {
    && InBand(u.glow, 0.0, 1.0)
    && (u.glow.step == GlowRate || u.glow.step == -GlowRate)
    && 0.0 <= u.holeSize <= u.holeMax + HoleGrowth
    && (u.blackHole ==> u.mode == Superluminal)
    && 0 <= u.beam.time && u.beam.time % FrameMs == 0
  }

  lemma NewUfoSound(w: nat, h: nat, s: SpeedState, d: SpawnDraws)
    requires d.Valid()
    ensures Sound(NewUfo(w, h, s, d))
  {
  }

  lemma StepUfoSound(u: Ufo, draw: real)
    ensures Sound(u) ==> Sound(StepUfo(u, draw))
  {
  }

  /** One frame of the UFOs from index `i` on; the UFO at index `k` reads
      the beam draw `draws(k)`. None are added; a UFO is removed only once
      gone past its far edge. */
  function UpdateFrom(us: seq<Ufo>, i: nat, w: nat, draws: nat -> real): (r: seq<Ufo>)
    requires i <= |us|
    ensures |r| <= |us| - i
    ensures forall k :: 0 <= k < |r| ==> !Gone(r[k], w)
    ensures (forall k :: i <= k < |us| ==> !Gone(StepUfo(us[k], draws(k)), w)) ==> |r| == |us| - i
    ensures (forall k :: i <= k < |us| ==> Sound(us[k])) ==> forall k :: 0 <= k < |r| ==> Sound(r[k])
    ensures forall v :: v in r ==> exists j :: i <= j < |us| && v == StepUfo(us[j], draws(j))
    decreases |us| - i
  {
    if i == |us| then []
    else
      var v := StepUfo(us[i], draws(i));
      var rest := UpdateFrom(us, i + 1, w, draws);
      StepUfoSound(us[i], draws(i));
      if Gone(v, w) then rest else [v] + rest
  }

  function UpdateUfos(us: seq<Ufo>, w: nat, draws: nat -> real): (r: seq<Ufo>)
    ensures |r| <= |us|
    ensures forall k :: 0 <= k < |r| ==> !Gone(r[k], w)
    ensures (forall k :: 0 <= k < |us| ==> Sound(us[k])) ==> forall k :: 0 <= k < |r| ==> Sound(r[k])
    ensures forall v :: v in r ==> exists j :: 0 <= j < |us| && v == StepUfo(us[j], draws(j))
  {
    UpdateFrom(us, 0, w, draws)
  }

  /** A UFO that has not yet flown past the edge it flies towards survives
      the frame, so removal only ever happens in the direction of travel. */
  lemma {:induction false} KeptUnlessGone(us: seq<Ufo>, i: nat, w: nat, draws: nat -> real, j: nat)
    requires i <= j < |us| && !Gone(StepUfo(us[j], draws(j)), w)
    ensures StepUfo(us[j], draws(j)) in UpdateFrom(us, i, w, draws)
    decreases j - i
  {
    if i < j {
      KeptUnlessGone(us, i + 1, w, draws, j);
    }
  }

  /** The update of a pool splits at any index: the update of the UFOs
      before it, then the update of the UFOs from it on. So survivors keep
      their input order. */
  lemma {:induction false} UpdateSplits(us: seq<Ufo>, i: nat, j: nat, w: nat, draws: nat -> real)
    requires i <= j <= |us|
    ensures UpdateFrom(us, i, w, draws) == UpdateFrom(us[..j], i, w, draws) + UpdateFrom(us, j, w, draws)
    decreases j - i
  {
    var pre := us[..j];
    if i < j {
      var v := StepUfo(us[i], draws(i));
      var middle := UpdateFrom(pre, i + 1, w, draws);
      var after := UpdateFrom(us, j, w, draws);
      assert pre[i] == us[i];
      UpdateSplits(us, i + 1, j, w, draws);
      if !Gone(v, w) {
        assert [v] + (middle + after) == ([v] + middle) + after;
      }
    } else {
      assert UpdateFrom(pre, i, w, draws) == [];
    }
  }
}
